=== FILE: README.md ===
# pdf-maker front-ends, modelled in Dafny

pdf-maker is a browser tool. It loads a PDF, stamps a signature and an
optional title and notes block onto it, and offers the result for download.
It has two front-ends:

- the drag-positioned "studio" page, `public/app.js`. The signer drags a
  signature overlay over the preview, and the overlay's position decides
  where the name lands on the last page.
- the fixed-box "classic" page, `app.js`. It draws a framed signature block
  in the bottom-right corner of the last page.

This project models the logic of both pages as immutable datatypes and pure
functions, and proves what that logic promises:

- `Text`: JavaScript's `trim`, `split(/\s+/)`, `join(" ")`, `indexOf` and
  ASCII `toLowerCase` over `seq<char>`. Whitespace is the ECMAScript
  WhiteSpace and LineTerminator set, the same set for `\s` and `trim`.
- `Wrap`: `wrapText`, which both pages define identically. It is proved
  against its partners:
  - the joined words of the input (round trip);
  - a length bound with the long-word exception;
  - greedy maximality;
  - "no lines iff no words".
- `Geometry`, `Overlay`: the studio page's default overlay spot, the drag
  clamp, and the map from overlay position to a point on the last page.
- `Pdf`: the document abstraction, a list of page sizes plus draw commands.
  It also holds the shared first-page title and notes block.
- `StudioStamp`, `ClassicStamp`: the two `applySignatureToPdf` functions as
  plans of draw commands, including the classic page's box-and-lines layout.
- `Files`: file acceptance, base-name stripping, download names and
  `arraysEqual`.
- `StudioSession`, `ClassicSession`: the two controllers as state machines
  over events (choose, read done or failed, press, move, release, apply).
  Each has an invariant proved for every event sequence, plus a download
  function.

Several behaviours of the code are easy to misread. The model follows the
code in each:

- **Anchor bounds.** The anchor's lower bounds (40 from the left and from the
  bottom) hold only on pages at least 200 wide and 80 tall. The upper clamp is
  applied last. `Overlay.NarrowPageEscapesMargin` shows a 100×100 page where
  the name starts left of the 40-point margin.
- **Rejected files.** A rejected file does not clear the state. Both pages
  only disable the buttons and keep the previously loaded bytes, name and
  signature state (`*.RejectedFileKeepsDocument`).
- **Overlay reset.** The overlay position is not discarded on a new load. It
  is overwritten with the default spot on every preview update, which happens
  after a load and after a successful apply.
- **Signed names.** The download name ends in "-signed.pdf" exactly when the
  document is signed *or* the base name already ends in "-signed"
  (`Files.UnsignedLooksSigned`). The exact statement is that the name equals
  base + "-signed.pdf" iff signed.
- **Deciding "signed".** The classic page decides "signed" by comparing bytes.
  A stamp that happened to reproduce the loaded bytes would be offered under
  the unsigned name (`ClassicSession.ApplySignedIffDifferent`). The studio
  page keeps a flag.
- **Date line below the margin.** Only the name's anchor is clamped into the
  margins. The date line is drawn 14 below it, so with the overlay at the
  bottom of the viewer it lands at y = 26, under the 40-point bottom margin
  (`StudioStamp.DateLineBelowMargin`).
- **Unplaced overlay.** The studio page refuses to sign while the overlay has
  no position, but that never happens. The page only wires its handlers when
  the viewer exists, and every completed read then places the overlay at its
  default spot. So whenever a document is held the overlay has a position
  (`StudioSession.NotPlacedUnreachable`).
- **Empty documents.** The classic stamp never looks at the page count. A document
  without pages makes `lastPage.getWidth()` throw, which the apply handler
  catches as a failure. The model returns the same `NoPages` failure that the
  studio page raises explicitly.

## Model

| member | source | states |
|---|---|---|
| Text.Trim | public/app.js:474-477 | the trimmed text has no surrounding whitespace; it is empty exactly when the input is whitespace only; tidy text is unchanged |
| Text.TrimKeepsMiddle | public/app.js:367-370 | the trimmed text is a slice of the input with only whitespace before and after it, so trimming removes the surrounding whitespace and nothing else |
| Text.Split | public/app.js:468 | `split(/\s+/)`: at least one piece, no piece holds whitespace, only the first and last piece may be empty (exactly when the text starts or ends with whitespace), and `""` gives `[""]` |
| Text.SplitRebuilds | public/app.js:468 | there are non-empty whitespace runs, one between each two pieces, that weave the pieces back into exactly the text |
| Text.Words | public/app.js:468 | every word of the text is non-empty and has no whitespace |
| Text.WordsRebuild | public/app.js:468 | the words with non-empty whitespace runs put back between them are exactly the trimmed text: the words are its maximal non-whitespace runs, in order |
| Text.NoWordsAllSpace | public/app.js:467-468 | a text with no words is whitespace only |
| Text.SplitFraming | public/app.js:468 | the pieces are the words, framed by one empty piece for leading and one for trailing whitespace |
| Text.JoinSp | public/app.js:477 | `join(" ")` starts with the first word and ends with the last |
| Text.JoinTidy | public/app.js:477 | words joined with single spaces have no surrounding whitespace and are non-empty when there is a word |
| Text.JoinAppend | public/app.js:477 | joining a concatenation is joining each part with one space between |
| Text.SplitJoin | public/app.js:468 | splitting words joined with single spaces gives back exactly those words |
| Text.WordsJoin | public/app.js:468 | the words of joined words are those words |
| Text.IndexOf | public/app.js:236 | `indexOf`: -1, or the first position where the text occurs |
| Text.Lower | public/app.js:236 | lower-casing keeps the length, leaves no ASCII capital, turns each capital into its small letter (code point + 32) and keeps every other character |
| Text.LowerIdempotent | public/app.js:236 | lower-casing twice is lower-casing once |
| Text.EndsWithPdf | public/app.js:237 | `/\.pdf$/i`: the text ends in ".pdf" in any case; `Files.StudioAccepts` and `Files.BaseName` state the acceptance and stripping built on it |
| Wrap.Place | public/app.js:473-478 | one step of the word loop; `Wrap.PlaceWord` states that it keeps the output well formed and greedy and adds exactly the word to the joined text |
| Wrap.Flush | public/app.js:481 | the closing push of a non-empty current line; `Wrap.WrapText` states that no line is empty and `Wrap.JoinRoundTrip` that the lines hold every word |
| Wrap.WrapText | public/app.js:466-483 | an empty text gives no lines, and no line is ever empty |
| Wrap.PlaceAll | public/app.js:473-479 | the word loop never pushes an empty line |
| Wrap.PlaceWord | public/app.js:473-479 | one loop step keeps the output well formed and greedy, and adds exactly that word to the joined text |
| Wrap.PlaceWords | public/app.js:472-481 | the whole loop keeps the invariant and adds exactly its words |
| Wrap.WrapOverWords | public/app.js:468-482 | the empty pieces from leading or trailing whitespace change no output: wrapping runs over the words alone |
| Wrap.LinesFit | public/app.js:473-478 | every line is a non-empty tidy line within the budget, or a single word longer than the budget |
| Wrap.JoinRoundTrip | public/app.js:468-482 | the lines joined with single spaces equal the input's words joined with single spaces |
| Wrap.WordsRoundTrip | app.js:259-276 | re-splitting the joined lines gives exactly the input's words |
| Wrap.Maximal | public/app.js:473-475 | each line plus a space plus the next line's first word is over the budget |
| Wrap.NoLinesIffNoWords | public/app.js:467-482 | there are no lines exactly when the text has no word |
| Wrap.NonBlankHasLines | public/app.js:447-449 | notes that are not blank after trimming give at least one line |
| Wrap.LongWordAlone | public/app.js:473-476 | every word longer than the budget is a line of its own |
| Wrap.KeepLongAll | public/app.js:473-479 | a pushed or current over-budget word stays a line of its own |
| Geometry.Clamp | public/app.js:203-206 | the raise-then-cap clamp never exceeds the cap, reaches the floor when the range is non-empty, and is the identity inside the range |
| Geometry.ClampIdempotent | public/app.js:406-410 | clamping twice is clamping once |
| Geometry.ClampMonotone | public/app.js:406-410 | the clamp is monotone |
| Overlay.OrDefault | public/app.js:155-156 | the viewer's client width or height, or the default 800 or 600 when it reports zero; `Overlay.DefaultPlacement` states the spot computed from it |
| Overlay.DefaultPlacement | public/app.js:150-171 | the default spot is never less than 20 from the left and top edges, and is exactly the viewer width minus 240 across and the viewer height minus 90 down (800×600 when the viewer reports no size) unless that is raised to 20 |
| Overlay.DragTo | public/app.js:188-213 | the dragged position stays at least 10 inside the right and bottom edges, at least 10 inside the left and top edges when the viewer has room, and follows the pointer exactly inside that range |
| Overlay.DragSettled | public/app.js:194-206 | re-clamping a dragged position with no movement leaves it in place |
| Overlay.DragMonotone | public/app.js:194-206 | dragging further right or down never moves the overlay left or up |
| Overlay.Ratio | public/app.js:390-396 | the centre ratio is in [0,1], is offset/extent inside that range, and saturates at 0 and 1 |
| Overlay.RatioX | public/app.js:379-396 | the horizontal ratio is in [0,1] for any position, including the missing-position fallback |
| Overlay.RatioY | public/app.js:379-396 | the vertical ratio is in [0,1] for any position |
| Overlay.PageAnchor | public/app.js:376-410 | the anchor is at most W-160 across and H-40 up; it is at least 40 across when W ≥ 200 and at least 40 up when H ≥ 80 |
| Overlay.AnchorX | public/app.js:398-407 | the horizontal anchor stays left of W-160, and right of 40 on wide pages |
| Overlay.AnchorY | public/app.js:399-410 | the flipped vertical anchor stays below H-40, and above 40 on tall pages |
| Overlay.AnchorIsLinear | public/app.js:398-410 | inside the margins the anchor is ratio×W-60 across and (1-ratio)×H up |
| Overlay.RatioMonotone | public/app.js:390-396 | the clamped ratio is monotone in the offset |
| Overlay.AnchorXMonotone | public/app.js:386-407 | the name's x never decreases as the overlay moves right |
| Overlay.AnchorYAntitone | public/app.js:387-410 | the name's y never increases as the overlay moves down |
| Overlay.AnchorVerticalExtremes | public/app.js:387-410 | on a page at least 80 tall, an overlay whose centre is at or above the viewer top maps to H-40, and one whose centre is at or below its bottom maps to 40 |
| Overlay.AnchorSettled | public/app.js:405-410 | the lower-then-upper clamp applied again changes nothing |
| Overlay.NarrowPageEscapesMargin | public/app.js:405-407 | on a 100-wide page the anchor falls left of the 40 margin |
| Pdf.Clean | public/app.js:367-370 | each trimmed form field is tidy and is empty exactly when the field is whitespace only |
| Pdf.CleanIdempotent | app.js:172-175 | trimming the form twice is trimming it once |
| Pdf.Draw | public/app.js:413-458 | drawing keeps the pages and the earlier marks, and appends exactly the new marks |
| Pdf.OnPagesAppend | public/app.js:413-458 | marks on existing pages stay on existing pages when concatenated |
| Pdf.Day | public/app.js:372-373 | the date is the first ten characters of the ISO timestamp |
| Pdf.Column | public/app.js:447-458 | the i-th notes line is a size-9 Helvetica label on page 0 at the column's x, 11×i below the first |
| Pdf.Heading | public/app.js:436-445 | at most one mark, present exactly when the title is non-empty: a bold page-0 label carrying the title, at the style's drop below the top |
| Pdf.Header | public/app.js:432-460 | every header mark is a label on page 0 at the style's left edge |
| Pdf.HeaderLayout | app.js:223-252 | the header is the title (if any) followed by exactly the wrapped notes lines, each 11 below the previous, starting at the block's top, or one gap below it when there is a title; blank title and notes give nothing |
| Pdf.HeaderDescends | app.js:223-252 | header baselines strictly descend down the page |
| Pdf.HeaderNotesFit | app.js:240-251 | each notes line is within 90 characters or is a single word, and no notes word is lost |
| Pdf.HeaderOnPages | public/app.js:431-460 | the header only draws on existing pages |
| Pdf.HeaderEmptyIff | public/app.js:432 | nothing is drawn on the first page exactly when the trimmed title and notes are both empty |
| StudioStamp.Signature | public/app.js:413-429 | the name and meta line are two marks on the last page |
| StudioStamp.Plan | public/app.js:353-464 | the plan fails exactly when there are no pages; otherwise it has at least two marks, all on existing pages |
| StudioStamp.Stamp | public/app.js:353-464 | stamping fails exactly on a page-less document; otherwise it keeps the pages and the earlier marks and adds marks only on existing pages |
| StudioStamp.PlanSignature | public/app.js:376-429 | the name is drawn at the page anchor on the last page in size 18, and the meta line 14 below it on the same page; the name's anchor is inside the margins on pages of at least 200×80, while the meta line can fall to y = 26 |
| StudioStamp.DateLineBelowMargin | public/app.js:405-428 | on a 600×800 page with the overlay at the bottom of the viewer, the name sits at y = 40 and the date line at y = 26, below the margin |
| StudioStamp.MetaLine | public/app.js:421 | the date line's text; `StudioStamp.MetaLineShape` states its exact form with and without a title |
| StudioStamp.MetaLineShape | public/app.js:421 | the meta line is exactly "Date: " plus the day, followed by " · " and the title exactly when a title is present |
| StudioStamp.PlanDateLine | public/app.js:372-373 | the second mark's text is exactly "Date: " plus the day, followed by " · " and the title exactly when the title is non-empty |
| StudioStamp.PlanHeader | public/app.js:431-460 | after the two signature marks come exactly the header marks, on page 0 at x = 40; there are only two marks exactly when title and notes are blank |
| StudioStamp.OnePageScenario | public/app.js:353-464 | a one-page document with only a name gives the name and the date line, both on page 0 |
| StudioStamp.ThreePageScenario | public/app.js:353-464 | on a three-page document the signature goes to page 2 and the title to page 0 at H-56 |
| ClassicStamp.Present | app.js:184-188 | `filter(Boolean)`: every kept value is non-empty and is one of the entries, every present non-empty entry is kept, and nothing is dropped when all are present |
| ClassicStamp.PresentAppend | app.js:184-188 | filtering a concatenation filters each part, so the kept values stay in their order |
| ClassicStamp.PresentSingle | app.js:184-188 | one entry is kept exactly when it is present and non-empty |
| ClassicStamp.SignatureLines | app.js:184-188 | "Signed by: " + name first, "Title: " + title only when the title is non-empty, "Date: " + day last: two or three lines |
| ClassicStamp.StartX | app.js:196-197 | the block starts at the larger of W-270 and 50 |
| ClassicStamp.SignatureBlock | app.js:201-220 | one rectangle then one label per line, all on the last page |
| ClassicStamp.BoxHoldsLines | app.js:190-220 | the box has its bottom at 62, height 12n+16, left edge startX-8 and width 236 (right edge W-42 on pages at least 320 wide); every line sits at startX inside it with its whole 10-point height below the top; consecutive lines are 12 apart |
| ClassicStamp.Plan | app.js:163-257 | the plan fails exactly when there are no pages; otherwise every mark is on an existing page |
| ClassicStamp.Stamp | app.js:163-257 | stamping fails exactly on a page-less document; otherwise it keeps the pages and earlier marks and adds marks only on existing pages |
| ClassicStamp.PlanSignature | app.js:184-220 | the box comes first on the last page, followed by the two or three signature lines with the expected texts |
| ClassicStamp.PlanHeader | app.js:223-252 | after the signature block come exactly the header marks on page 0 at x = 50, the title at H-90; the block stands alone exactly when title and notes are blank |
| Files.StudioAccepts | public/app.js:235-237 | a file is accepted exactly when its type mentions "pdf" in any case or its name ends in ".pdf" in any case |
| Files.ClassicAccepts | app.js:74 | a file is accepted exactly when its type mentions lower-case "pdf" |
| Files.ClassicStricter | app.js:74 | every file the classic page accepts, the studio page accepts |
| Files.StudioLaxer | public/app.js:235-237 | the studio page also accepts a typeless "scan.pdf" and an upper-case type, and the classic page rejects both |
| Files.BaseName | public/app.js:247 | one trailing ".pdf" in any case is stripped, and an empty result becomes "document" |
| Files.DownloadName | public/app.js:493-495 | the name ends in ".pdf", and in "-signed.pdf" when signed; it starts with the base, or with "document" when the base is empty |
| Files.SignedNameIff | public/app.js:487-495 | the name is base + "-signed.pdf" iff signed and base + ".pdf" iff not; it ends in "-signed.pdf" iff signed or the base ends in "-signed" |
| Files.UnsignedLooksSigned | app.js:286-287 | an unsigned "contract-signed.pdf" is offered under a "-signed.pdf" name |
| Files.UnsignedRoundTrip | app.js:82 | an unsigned download of a name longer than four characters that ends in lower-case ".pdf" keeps that name, and a name not ending in ".pdf" in any case gets ".pdf" appended |
| Files.ArraysEqual | app.js:298-305 | true exactly when both buffers are present and hold the same bytes |
| StudioSession.Validate | public/app.js:301-331 | each rejection is reported exactly when its check is the first to fail, in the order no bytes, engine missing, blank name, overlay not placed; signing may go ahead exactly when none fails |
| StudioSession.Replace | public/app.js:120-142 | with an overlay, a preview update places it at least 20 from the left and top, exactly 240 and 90 in from the viewer's right and bottom when the viewer is large enough; without one the position is left alone |
| StudioSession.Step | public/app.js:176-351 | the buffers and the signed flag change only on a cleared choice, a finished or failed read, or a successful stamp; apply never changes the loaded bytes or the base name; only a file choice changes the base name; the position changes only after a read, a drag move or a successful stamp |
| StudioSession.RejectedApplyChangesNothing | public/app.js:301-334 | an apply click that fails validation leaves the state unchanged |
| StudioSession.Offer | public/app.js:487-495 | nothing is offered exactly when both buffers are missing; otherwise the current bytes (or the original ones) are offered under the signed or unsigned name |
| StudioSession.StepInv | public/app.js:221-351 | every event keeps the invariant: both buffers or neither; buttons and flag only with a document; an unsigned document is the loaded one; no position or drag without an overlay; with an overlay, a position whenever a document is held |
| StudioSession.ApplyInv | public/app.js:333-351 | applying keeps the invariant |
| StudioSession.RunInv | public/app.js:221-351 | any event sequence keeps the invariant |
| StudioSession.NotPlacedUnreachable | public/app.js:322-328 | no event sequence from the start reaches a state where validation refuses because the overlay is not placed |
| StudioSession.NothingBeforeLoad | public/app.js:487-491 | until a read completes nothing is offered |
| StudioSession.LoadOffersOriginal | public/app.js:251-260 | a completed read offers exactly the bytes read under the unsigned name |
| StudioSession.BlankNameChangesNothing | public/app.js:315-320 | a blank signer name leaves the state unchanged |
| StudioSession.ApplyOffersSigned | public/app.js:333-343 | a successful stamp is offered under the "-signed.pdf" name, the loaded bytes are kept, and the overlay returns to its default spot |
| StudioSession.ApplyFailureKeepsDocument | public/app.js:344-350 | a failed stamp only re-enables the buttons; the offer is unchanged |
| StudioSession.RejectedFileKeepsDocument | public/app.js:239-245 | a rejected file only disables the buttons; the offer is unchanged |
| StudioSession.MoveStaysInside | public/app.js:188-213 | during a drag, every move keeps the overlay within the 10px margins |
| StudioSession.ClickWithoutMoving | public/app.js:176-217 | press, move to the same point and release leaves a placed overlay where it was and ends the drag |
| StudioSession.NoOverlayNoDrag | public/app.js:176-217 | without an overlay, pointer events change nothing |
| StudioSession.ClearedOffersNothing | public/app.js:224-233 | choosing no file forgets the document and its name |
| ClassicSession.Validate | app.js:128-142 | signing may go ahead exactly when bytes are held and the name is not blank, with no bytes reported first |
| ClassicSession.Step | app.js:62-161 | the buffers change only on a cleared choice, a finished or failed read, or a successful stamp; apply never changes the loaded bytes or the base name; only a file choice changes the base name |
| ClassicSession.RejectedApplyChangesNothing | app.js:128-145 | an apply click that fails validation leaves the state unchanged |
| ClassicSession.Offer | app.js:278-296 | nothing is offered exactly when both buffers are missing; otherwise the current (or original) bytes are offered, named "-signed.pdf" exactly when both buffers are held and differ |
| ClassicSession.StepInv | app.js:62-161 | every event keeps "both buffers or neither, and buttons only with a document" |
| ClassicSession.RunInv | app.js:62-161 | any event sequence keeps the invariant |
| ClassicSession.LoadIsUnchanged | app.js:85-91 | a completed read holds the same bytes twice, so it counts as unsigned |
| ClassicSession.Changed | app.js:284 | both buffers held and different; `ClassicSession.ApplySignedIffDifferent` states when a stamp makes it hold, and `ClassicSession.Offer` that it picks the download name |
| ClassicSession.ApplySignedIffDifferent | app.js:144-161 | after a successful stamp the document counts as signed exactly when the stamp changed the loaded bytes |
| ClassicSession.BlankNameChangesNothing | app.js:134-139 | a blank signer name leaves the state unchanged |
| ClassicSession.RejectedFileKeepsDocument | app.js:74-80 | a rejected file only disables the buttons |
| ClassicSession.ReadFailureKeepsName | app.js:92-98 | a failed read drops both buffers but keeps the base name |
| ClassicSession.NothingBeforeLoad | app.js:278-282 | until a read completes no bytes are held |

## Left out

- The DOM, status messages, CSS classes and colours are left out. So are button wiring, `FileReader`, `Blob`/object URLs, the download anchor and timers. File reading and stamping become event parameters: the bytes read, or the stamped bytes or a failure.
- pdf-lib loading, font embedding, rendering and saving are left out. A document is a list of page sizes plus the draw commands added to it. The session events carry the stamp's resulting bytes; they are not computed from the plan.
- Asynchronous interleaving is not modelled, for example a second file chosen before the first read completes. Events are applied one at a time in arrival order.
- Disabled buttons are not modelled as blocking their clicks: the apply and download handlers are modelled as if they could always fire.
- The clock is an ISO string parameter, `new Date().toISOString()`.
- IEEE double rounding is replaced by exact `real` arithmetic.
- String lengths count characters, not UTF-16 code units. `toLowerCase` is modelled for ASCII letters only.
- In the classic page the script stops before wiring any handler when pdf-lib is missing. The classic model assumes the engine is present.
- `updateSignatureText` only changes the overlay's visible text, so it is not modelled.
- The studio overlay's `parseFloat(style.left \|\| "0")` is modelled as the stored position, or (0,0) before the first placement.
- server.js is not part of this model: it is static file serving.

=== FILE: basics.dfy ===
/** Small failure-carrying datatypes shared by the whole model. */
module Basics {

  /** A value that may be absent: JavaScript's `null` for a buffer or a position. */
  datatype Option<+T> = None | Some(value: T) {

    /** The value, or `fallback` when absent (JavaScript's `x || fallback` on objects). */
    function OrElse(fallback: T): T {
      match this
      case Some(v) => v
      case None => fallback
    }
  }

  /** The outcome of an operation that may throw. */
  datatype Result<+R, +E> = Success(value: R) | Failure(error: E)
}

=== FILE: classic_session.dfy ===
/**
 * The session controller of the fixed-box front-end (app.js): the loaded and
 * the current bytes and the base name, how each event changes them, and the
 * download button, which decides whether a document is signed by comparing
 * the two buffers byte for byte.
 */
module ClassicSession {
  import opened Basics
  import opened Text
  import opened Files

  /** The controller's state; `enabled` stands for the apply and download
      buttons, which are always switched together. */
  datatype Session = Session(original: Option<Bytes>, current: Option<Bytes>, baseName: string, enabled: bool)

  /** The state before any event. */
  const Start := Session(None, None, "", false)

  /** The events the controller reacts to, each carrying what the browser
      reports: the chosen file, the bytes read, the signer-name field and the
      outcome of stamping (the new bytes, or None when stamping threw). */
  datatype Event =
    | Chose(file: Option<FileInfo>)
    | ReadDone(bytes: Bytes)
    | ReadFailed
    | Apply(signerName: string, outcome: Option<Bytes>)

  /** Why the apply button refused to sign, in the order `validateBeforeSign` looks at them. */
  datatype Rejection = NoDocument | NameRequired

  /** `validateBeforeSign`: the first condition that fails, or None when signing
      may go ahead. The signer name counts as missing when trimming empties
      it, which by `Trim`'s contract is when it is whitespace only. */
  function Validate(s: Session, signerName: string): (r: Option<Rejection>)
    ensures r == Some(NoDocument) <==> s.current.None?
    ensures r == Some(NameRequired) <==> s.current.Some? && AllSpace(signerName)
    ensures r.None? <==> s.current.Some? && !AllSpace(signerName)
  {
    if s.current.None? then Some(NoDocument)
    else if AllSpace(signerName) then Some(NameRequired)
    else None
  }

  /** The state after one event.  The buffers change only when no file is
      chosen, a read ends, or a stamp succeeds; the loaded bytes and the base
      name never change on apply; the base name changes only when a file is
      chosen. */
  function Step(s: Session, e: Event): (r: Session)
    ensures !(e.Chose? && e.file.None?) && !e.ReadDone? && !e.ReadFailed?
            && !(e.Apply? && Validate(s, e.signerName).None? && e.outcome.Some?) ==>
              r.original == s.original && r.current == s.current
    ensures e.Apply? ==> r.original == s.original && r.baseName == s.baseName
    ensures !e.Chose? ==> r.baseName == s.baseName
  {
    match e
    case Chose(None) => Session(None, None, "", false)
    case Chose(Some(f)) =>
      if ClassicAccepts(f) then s.(baseName := BaseName(f.name)) else s.(enabled := false)
    case ReadDone(bytes) => s.(original := Some(bytes), current := Some(bytes), enabled := true)
    case ReadFailed => s.(original := None, current := None, enabled := false)
    case Apply(name, outcome) =>
      if Validate(s, name).Some? then s
      else if outcome.Some? then s.(current := outcome, enabled := true)
      else s.(enabled := true)
  }

  /** The state after a sequence of events, in order. */
  function Run(s: Session, events: seq<Event>): Session
    decreases |events|
  {
    if events == [] then s else Run(Step(s, events[0]), events[1..])
  }

  /** A document counts as signed when both buffers are held and differ. */
  predicate Changed(s: Session) {
    s.current.Some? && s.original.Some? && s.current.value != s.original.value
  }

  /** `onDownloadClicked`: the bytes and file name offered, or None ("nothing
      to download yet") when no document is held. The name carries
      "-signed.pdf" exactly when the current bytes differ from the loaded ones. */
  method Offer(s: Session) returns (r: Option<(Bytes, string)>)
    ensures r.None? <==> s.current.None? && s.original.None?
    ensures r.Some? ==> r.value.1 == DownloadName(s.baseName, Changed(s))
    ensures r.Some? && s.current.Some? ==> r.value.0 == s.current.value
    ensures r.Some? && s.current.None? ==> r.value.0 == s.original.value
  {
    if s.current.None? && s.original.None? {
      return None;
    }
    var same := ArraysEqual(s.current, s.original);
    var signed := s.current.Some? && s.original.Some? && !same;
    var bytes := if s.current.Some? then s.current.value else s.original.value;
    var base := if s.baseName == "" then "document" else s.baseName;
    var name := if signed then base + "-signed.pdf" else base + ".pdf";
    return Some((bytes, name));
  }

  // ---------------------------------------------------------------------------
  // The state invariant

  /** What holds of every reachable state: both buffers are held or neither,
      and the buttons are live only while a document is held. */
  predicate Inv(s: Session) {
    && (s.current.None? <==> s.original.None?)
    && (s.enabled ==> s.current.Some?)
  }

  lemma StartInv()
    ensures Inv(Start)
  {
  }

  /** Every event keeps the invariant. */
  lemma StepInv(s: Session, e: Event)
    requires Inv(s)
    ensures Inv(Step(s, e))
  {
  }

  /** Any sequence of events keeps the invariant. */
  lemma {:induction false} RunInv(s: Session, events: seq<Event>)
    requires Inv(s)
    ensures Inv(Run(s, events))
    decreases |events|
  {
    if events != [] {
      StepInv(s, events[0]);
      RunInv(Step(s, events[0]), events[1..]);
    }
  }

  // ---------------------------------------------------------------------------
  // Consequences

  /** A completed read holds the same bytes twice, so it is offered unsigned. */
  lemma LoadIsUnchanged(s: Session, bytes: Bytes)
    ensures !Changed(Step(s, ReadDone(bytes)))
    ensures Step(s, ReadDone(bytes)).current == Some(bytes)
  {
  }

  /** After a successful stamp the document counts as signed exactly when the
      stamp changed the bytes that were loaded. */
  lemma ApplySignedIffDifferent(s: Session, name: string, b: Bytes)
    requires Inv(s) && Validate(s, name).None?
    ensures Changed(Step(s, Apply(name, Some(b)))) <==> b != s.original.value
  {
    assert Step(s, Apply(name, Some(b))) == s.(current := Some(b), enabled := true);
  }

  /** Any apply click that validation refuses (no document, blank name)
      leaves the state as it was. */
  lemma RejectedApplyChangesNothing(s: Session, name: string, outcome: Option<Bytes>)
    requires Validate(s, name).Some?
    ensures Step(s, Apply(name, outcome)) == s
  {
  }

  /** A blank or missing signer name leaves the state as it was. */
  lemma BlankNameChangesNothing(s: Session, name: string, outcome: Option<Bytes>)
    requires AllSpace(name)
    ensures Step(s, Apply(name, outcome)) == s
  {
  }

  /** A rejected file only disables the buttons: the previous document and
      its name are kept. */
  lemma RejectedFileKeepsDocument(s: Session, f: FileInfo)
    requires !ClassicAccepts(f)
    ensures Step(s, Chose(Some(f))) == s.(enabled := false)
  {
  }

  /** A failed read drops both buffers but keeps the chosen file's base name. */
  lemma ReadFailureKeepsName(s: Session)
    ensures Step(s, ReadFailed).baseName == s.baseName
    ensures Step(s, ReadFailed).current.None? && Step(s, ReadFailed).original.None?
  {
  }

  /** Until some read completes there is nothing to download. */
  lemma {:induction false} NothingBeforeLoad(s: Session, events: seq<Event>)
    requires s.current.None? && s.original.None?
    requires forall i :: 0 <= i < |events| ==> !events[i].ReadDone?
    ensures Run(s, events).current.None? && Run(s, events).original.None?
    decreases |events|
  {
    if events != [] {
      var next := Step(s, events[0]);
      assert forall i :: 0 <= i < |events[1..]| ==> !events[1..][i].ReadDone? by {
        forall i | 0 <= i < |events[1..]|
          ensures !events[1..][i].ReadDone?
        {
          assert events[1..][i] == events[i + 1];
        }
      }
      NothingBeforeLoad(next, events[1..]);
    }
  }
}

=== FILE: classic_stamp.dfy ===
/**
 * The fixed-box front-end's stamp (applySignatureToPdf in app.js): a framed
 * block of two or three signature lines near the bottom-right corner of the
 * last page, and the optional title and notes on the first page.
 */
module ClassicStamp {
  import opened Basics
  import opened Text
  import opened Geometry
  import opened Pdf

  const SigSize: real := 10.0
  /** Distance between signature baselines: the font size plus 2. */
  const Leading: real := 12.0
  const Margin: real := 50.0
  /** The block is laid out for lines up to 220pt wide. */
  const BlockWidth: real := 220.0
  /** The frame extends this far beyond the text on every side. */
  const Pad: real := 8.0
  /** Space between the bottom margin and the lowest signature baseline's frame. */
  const Lift: real := 20.0

  /** Title at 90pt below the top edge (the 50pt margin plus 40), x = 50;
      the notes 18pt further down when there is a title. */
  function Style(firstPage: Size): HeaderStyle {
    HeaderStyle(Margin, firstPage.height - Margin - 40.0, 0.0, 18.0)
  }

  /** `filter(Boolean)` over optional strings: absent and empty entries go,
      the rest keep their order. */
  function Present(xs: seq<Option<string>>): (ys: seq<string>)
    ensures |ys| <= |xs|
    ensures forall i :: 0 <= i < |ys| ==> ys[i] != ""
    ensures (forall i :: 0 <= i < |xs| ==> xs[i].Some? && xs[i].value != "") ==>
              |ys| == |xs| && forall i :: 0 <= i < |xs| ==> ys[i] == xs[i].value
    ensures forall j :: 0 <= j < |ys| ==> Some(ys[j]) in xs
    ensures forall i :: 0 <= i < |xs| && xs[i].Some? && xs[i].value != "" ==> xs[i].value in ys
  {
    if xs == [] then []
    else
      var head: seq<string> := if xs[0].Some? && xs[0].value != "" then [xs[0].value] else [];
      var rest := Present(xs[1..]);
      PresentStep(xs, head, rest);
      head + rest
  }

  /** The first entry, kept or dropped, in front of the filtered rest. */
  lemma PresentStep(xs: seq<Option<string>>, head: seq<string>, rest: seq<string>)
    requires xs != []
    requires head == if xs[0].Some? && xs[0].value != "" then [xs[0].value] else []
    requires |rest| <= |xs| - 1 && forall j :: 0 <= j < |rest| ==> rest[j] != ""
    requires (forall i :: 1 <= i < |xs| ==> xs[i].Some? && xs[i].value != "") ==>
               |rest| == |xs| - 1 && forall i :: 1 <= i < |xs| ==> rest[i - 1] == xs[i].value
    requires forall j :: 0 <= j < |rest| ==> Some(rest[j]) in xs[1..]
    requires forall i :: 0 <= i < |xs[1..]| && xs[1..][i].Some? && xs[1..][i].value != "" ==> xs[1..][i].value in rest
    ensures var ys := head + rest;
            && |ys| <= |xs|
            && (forall j :: 0 <= j < |ys| ==> ys[j] != "")
            && ((forall i :: 0 <= i < |xs| ==> xs[i].Some? && xs[i].value != "") ==>
                  |ys| == |xs| && forall i :: 0 <= i < |xs| ==> ys[i] == xs[i].value)
            && (forall j :: 0 <= j < |ys| ==> Some(ys[j]) in xs)
            && (forall i :: 0 <= i < |xs| && xs[i].Some? && xs[i].value != "" ==> xs[i].value in ys)
  {
    var ys := head + rest;
    forall j | 0 <= j < |rest|
      ensures Some(rest[j]) in xs
    {
      var i :| 0 <= i < |xs[1..]| && xs[1..][i] == Some(rest[j]);
      assert xs[i + 1] == Some(rest[j]);
    }
    forall i | 1 <= i < |xs|
      ensures xs[i] == xs[1..][i - 1]
    {
    }
  }

  /** Filtering a concatenation filters each part: together with the one-entry
      cases this fixes the order of the kept values. */
  lemma {:induction false} PresentAppend(a: seq<Option<string>>, b: seq<Option<string>>)
    ensures Present(a + b) == Present(a) + Present(b)
    decreases |a|
  {
    if a != [] {
      var head: seq<string> := if a[0].Some? && a[0].value != "" then [a[0].value] else [];
      assert (a + b)[0] == a[0];
      assert (a + b)[1..] == a[1..] + b;
      assert Present(a + b) == head + Present(a[1..] + b);
      assert Present(a) == head + Present(a[1..]);
      PresentAppend(a[1..], b);
      assert head + (Present(a[1..]) + Present(b)) == (head + Present(a[1..])) + Present(b);
    } else {
      assert a + b == b;
    }
  }

  /** One entry is kept exactly when it is present and non-empty. */
  lemma PresentSingle(x: Option<string>)
    ensures Present([x]) == if x.Some? && x.value != "" then [x.value] else []
  {
    assert [x][1..] == [];
  }

  /** The signature lines: who signed, their title when there is one, the day. */
  function SignatureLines(name: string, title: string, day: string): (lines: seq<string>)
    ensures |lines| == if title != "" then 3 else 2
    ensures lines[0] == "Signed by: " + name
    ensures title != "" ==> lines[1] == "Title: " + title
    ensures lines[|lines| - 1] == "Date: " + day
  {
    var signed := "Signed by: " + name;
    var titled := if title != "" then Some("Title: " + title) else None;
    var dated := "Date: " + day;
    var xs := [Some(signed), titled, Some(dated)];
    assert signed != "" by { assert signed[0] == 'S'; }
    assert dated != "" by { assert dated[0] == 'D'; }
    assert xs[1..][1..][1..] == [];
    assert Present(xs[1..][1..]) == [dated];
    assert Present(xs[1..]) == (if title != "" then ["Title: " + title] else []) + [dated];
    assert Present(xs) == [signed] + Present(xs[1..]);
    Present(xs)
  }

  /** Left edge of the text: 270pt in from the right edge, but at least 50. */
  function StartX(page: Size): (x: real)
    ensures x >= Margin && x >= page.width - Margin - BlockWidth
    ensures x == Margin || x == page.width - Margin - BlockWidth
  {
    var x := page.width - Margin - BlockWidth;
    if x < Margin then Margin else x
  }

  /** The framed signature block on page `last`: the frame first, then one
      line every 12pt downwards from just under its top edge. */
  function SignatureBlock(last: nat, page: Size, lines: seq<string>): (marks: seq<Mark>)
    ensures |marks| == 1 + |lines|
    ensures marks[0].Rectangle? && marks[0].page == last
    ensures forall i :: 1 <= i < |marks| ==> marks[i].Label? && marks[i].page == last
  {
    var total := Leading * |lines| as real;
    var startX := StartX(page);
    var startY := Margin + total + Lift;
    [Rectangle(last, Point(startX - Pad, startY - total - Pad), Size(BlockWidth + 2.0 * Pad, total + 2.0 * Pad))]
      + seq(|lines|, i requires 0 <= i < |lines| =>
              Label(last, lines[i], Point(startX, startY - Leading * (i + 1) as real), SigSize, Helvetica))
  }

  /** The frame's bottom edge is always 62pt up and it is 12n + 16 tall for n
      lines; it starts 8pt left of the text and is 236 wide, so on a page at
      least 320 wide its right edge is 42pt in from the page's.  Every line's
      text starts 8pt inside the frame and its baseline, and the 10pt glyphs
      on it, lie strictly inside the frame, each line 12pt below the last. */
  lemma BoxHoldsLines(last: nat, page: Size, lines: seq<string>)
    ensures var marks := SignatureBlock(last, page, lines);
            var box := marks[0];
            var n := |lines| as real;
            && box.corner.y == 62.0 && box.extent.height == Leading * n + 2.0 * Pad
            && box.corner.x == StartX(page) - Pad && box.extent.width == 236.0
            && (page.width >= 320.0 ==> box.corner.x + box.extent.width == page.width - 42.0)
            && (forall i :: 0 <= i < |lines| ==>
                  && marks[1 + i].text == lines[i]
                  && marks[1 + i].at.x == box.corner.x + Pad
                  && box.corner.y < marks[1 + i].at.y
                  && marks[1 + i].at.y + SigSize < box.corner.y + box.extent.height)
            && (forall i :: 1 <= i < |marks| - 1 ==> marks[i + 1].at.y == marks[i].at.y - Leading)
  {
    var marks := SignatureBlock(last, page, lines);
    var total := Leading * |lines| as real;
    var startX := StartX(page);
    var startY := Margin + total + Lift;
    forall i | 0 <= i < |lines|
      ensures marks[1 + i] == Label(last, lines[i], Point(startX, startY - Leading * (i + 1) as real), SigSize, Helvetica)
    {
    }
  }

  /** The marks drawn for the (already trimmed) form: the signature block on
      the last page, then the title-and-notes block on the first; `NoPages`
      for a document without pages, where the last page is missing. */
  function Plan(pages: seq<Size>, form: Form, iso: string): (r: Result<seq<Mark>, StampError>)
    ensures r.Failure? <==> pages == []
    ensures r.Success? ==> OnPages(r.value, |pages|)
  {
    if pages == [] then Failure(NoPages)
    else
      var last := |pages| - 1;
      var block := SignatureBlock(last, pages[last], SignatureLines(form.signerName, form.signerTitle, Day(iso)));
      var header := Header(Style(pages[0]), form.docTitle, form.docNotes);
      HeaderOnPages(Style(pages[0]), form.docTitle, form.docNotes, |pages|);
      OnPagesAppend(block, header, |pages|);
      Success(block + header)
  }

  /** The stamp: trim the form, plan the marks, draw them.  The pages never
      change, the earlier marks stay, and it fails exactly when the document
      has no pages. */
  function Stamp(doc: Document, form: Form, iso: string): (r: Result<Document, StampError>)
    ensures r.Failure? <==> doc.pages == []
    ensures r.Success? ==> r.value.pages == doc.pages && |doc.marks| <= |r.value.marks|
    ensures r.Success? ==> r.value.marks[..|doc.marks|] == doc.marks
    ensures r.Success? ==> OnPages(r.value.marks[|doc.marks|..], |doc.pages|)
  {
    var plan := Plan(doc.pages, Clean(form), iso);
    if plan.Failure? then Failure(plan.error) else Success(Draw(doc, plan.value))
  }

  lemma PlanShape(pages: seq<Size>, form: Form, iso: string)
    requires pages != []
    ensures Plan(pages, form, iso).value
         == SignatureBlock(|pages| - 1, pages[|pages| - 1], SignatureLines(form.signerName, form.signerTitle, Day(iso)))
            + Header(Style(pages[0]), form.docTitle, form.docNotes)
  {
  }

  /** On the last page: the frame, then "Signed by: " and the name, "Title: "
      and the title only when there is one, and "Date: " and the day; so the
      block has four marks with a title and three without. */
  lemma PlanSignature(pages: seq<Size>, form: Form, iso: string)
    requires pages != []
    ensures var marks := Plan(pages, form, iso).value;
            var last := |pages| - 1;
            var n := if form.signerTitle != "" then 3 else 2;
            && |marks| >= n + 1
            && marks[0].Rectangle? && marks[0].page == last
            && (forall i :: 1 <= i <= n ==> marks[i].Label? && marks[i].page == last)
            && marks[1].text == "Signed by: " + form.signerName
            && (form.signerTitle != "" ==> marks[2].text == "Title: " + form.signerTitle)
            && marks[n].text == "Date: " + Day(iso)
  {
    PlanShape(pages, form, iso);
    var last := |pages| - 1;
    var lines := SignatureLines(form.signerName, form.signerTitle, Day(iso));
    var block := SignatureBlock(last, pages[last], lines);
    BoxHoldsLines(last, pages[last], lines);
    var marks := Plan(pages, form, iso).value;
    forall i | 0 <= i < |block|
      ensures marks[i] == block[i]
    {
    }
  }

  /** After the signature block comes the title-and-notes block: on the first
      page at x = 50, title 90pt below the top edge, and, for trimmed notes,
      absent exactly when the title and notes are both empty. */
  lemma PlanHeader(pages: seq<Size>, form: Form, iso: string)
    requires pages != [] && Tidy(form.docNotes)
    ensures var marks := Plan(pages, form, iso).value;
            var k := if form.signerTitle != "" then 4 else 3;
            && |marks| >= k
            && marks[k..] == Header(Style(pages[0]), form.docTitle, form.docNotes)
            && (forall i :: k <= i < |marks| ==> marks[i].Label? && marks[i].page == 0 && marks[i].at.x == 50.0)
            && (form.docTitle != "" ==> marks[k] == Label(0, form.docTitle, Point(50.0, pages[0].height - 90.0), TitleSize, HelveticaBold))
            && (|marks| == k <==> form.docTitle == "" && form.docNotes == "")
  {
    PlanShape(pages, form, iso);
    var last := |pages| - 1;
    var lines := SignatureLines(form.signerName, form.signerTitle, Day(iso));
    var block := SignatureBlock(last, pages[last], lines);
    var header := Header(Style(pages[0]), form.docTitle, form.docNotes);
    var marks := Plan(pages, form, iso).value;
    var k := |block|;
    assert marks[k..] == header;
    HeaderEmptyIff(Style(pages[0]), form.docTitle, form.docNotes);
    HeaderLayout(Style(pages[0]), form.docTitle, form.docNotes);
    forall i | k <= i < |marks|
      ensures marks[i].Label? && marks[i].page == 0 && marks[i].at.x == 50.0
    {
      assert marks[i] == header[i - k];
    }
    if form.docTitle != "" {
      assert marks[k] == header[0];
    }
  }
}

=== FILE: files.dfy ===
/**
 * File acceptance, base names and download names for both front-ends, and
 * the byte-for-byte comparison the fixed-box front-end uses to tell whether
 * a document was signed.
 */
module Files {
  import opened Basics
  import opened Text

  type Byte = b: int | 0 <= b < 256
  type Bytes = seq<Byte>

  /** What the file picker reports about a chosen file: its name and its
      declared media type, which is empty when the browser does not know it. */
  datatype FileInfo = FileInfo(name: string, mime: string)

  /** `sub` occurs somewhere in `s`. */
  predicate Mentions(s: string, sub: string) {
    exists i :: 0 <= i <= |s| && OccursAt(s, sub, i)
  }

  lemma IndexOfFinds(s: string, sub: string)
    ensures IndexOf(s, sub) != -1 <==> Mentions(s, sub)
  {
    var r := IndexOf(s, sub);
    if r != -1 {
      assert OccursAt(s, sub, r);
    }
  }

  // ---------------------------------------------------------------------------
  // Acceptance

  /** public/app.js: the declared type mentions "pdf" in any letter case, or
      the name ends in ".pdf" in any letter case. */
  function StudioAccepts(f: FileInfo): (ok: bool)
    ensures ok <==> Mentions(Lower(f.mime), "pdf") || EndsWithPdf(f.name)
  {
    IndexOfFinds(Lower(f.mime), "pdf");
    (f.mime != "" && IndexOf(Lower(f.mime), "pdf") != -1) || EndsWithPdf(f.name)
  }

  /** app.js: the declared type mentions "pdf", in lower case exactly; the
      name is never consulted. */
  function ClassicAccepts(f: FileInfo): (ok: bool)
    ensures ok <==> Mentions(f.mime, "pdf")
  {
    IndexOfFinds(f.mime, "pdf");
    f.mime != "" && IndexOf(f.mime, "pdf") != -1
  }

  /** Lower-casing never removes an occurrence of an already lower-case text. */
  lemma LowerKeeps(s: string, sub: string, i: int)
    requires OccursAt(s, sub, i) && Lower(sub) == sub
    ensures OccursAt(Lower(s), sub, i)
  {
    var low := Lower(s);
    forall k | 0 <= k < |sub|
      ensures low[i..i + |sub|][k] == sub[k]
    {
      assert s[i..i + |sub|][k] == s[i + k];
      assert Lower(sub)[k] == LowerChar(sub[k]);
    }
  }

  /** A text missing one of the characters of sub cannot mention sub. */
  lemma Absent(s: string, sub: string, j: int)
    requires 0 <= j < |sub|
    requires forall k :: 0 <= k < |s| ==> s[k] != sub[j]
    ensures !Mentions(s, sub)
  {
    forall i | 0 <= i <= |s|
      ensures !OccursAt(s, sub, i)
    {
      if i + |sub| <= |s| {
        assert s[i..i + |sub|][j] == s[i + j];
      }
    }
  }

  /** Every file the fixed-box front-end accepts, the drag front-end accepts too. */
  lemma ClassicStricter(f: FileInfo)
    ensures ClassicAccepts(f) ==> StudioAccepts(f)
  {
    if ClassicAccepts(f) {
      var i :| 0 <= i <= |f.mime| && OccursAt(f.mime, "pdf", i);
      LowerPdf();
      LowerKeeps(f.mime, "pdf", i);
    }
  }

  lemma LowerPdf()
    ensures Lower("pdf") == "pdf"
  {
    var r := Lower("pdf");
    assert r[0] == 'p' && r[1] == 'd' && r[2] == 'f';
  }

  /** The converse fails: a name ending in ".pdf" with no declared type, or a
      type spelled in upper case. */
  lemma StudioLaxer()
    ensures StudioAccepts(FileInfo("scan.pdf", "")) && !ClassicAccepts(FileInfo("scan.pdf", ""))
    ensures StudioAccepts(FileInfo("scan", "application/PDF")) && !ClassicAccepts(FileInfo("scan", "application/PDF"))
  {
    assert Lower("scan.pdf"[4..]) == ".pdf";
    var t := "application/PDF";
    assert forall k :: 0 <= k < |t| ==> t[k] != 'f';
    assert "pdf"[2] == 'f';
    Absent(t, "pdf", 2);
    assert OccursAt(Lower(t), "pdf", 12) by {
      assert Lower(t)[12..15] == "pdf";
    }
  }

  // ---------------------------------------------------------------------------
  // Names

  /** The chosen file's name with one trailing ".pdf" (any letter case)
      removed, or "document" when that leaves nothing. */
  function BaseName(name: string): (base: string)
    ensures base != ""
    ensures EndsWithPdf(name) && |name| > 4 ==> base == name[..|name| - 4]
    ensures !EndsWithPdf(name) && name != "" ==> base == name
    ensures name == "" || (EndsWithPdf(name) && |name| == 4) ==> base == "document"
  {
    var stripped := if EndsWithPdf(name) then name[..|name| - 4] else name;
    if stripped == "" then "document" else stripped
  }

  /** The offered download name: the base name ("document" when it is empty)
      followed by "-signed.pdf" for a signed document and ".pdf" otherwise. */
  function DownloadName(base: string, signed: bool): (name: string)
    ensures EndsWith(name, ".pdf") && |name| > 4
    ensures signed ==> EndsWith(name, "-signed.pdf")
    ensures base != "" ==> |base| <= |name| && name[..|base|] == base
    ensures base == "" ==> |name| > 8 && name[..8] == "document"
  {
    (if base == "" then "document" else base) + (if signed then "-signed.pdf" else ".pdf")
  }

  /** The name is exactly the base plus "-signed.pdf" when and only when the
      document is signed; it ends in "-signed.pdf" exactly when the document is
      signed or the base itself ends in "-signed". */
  lemma SignedNameIff(base: string, signed: bool)
    requires base != ""
    ensures DownloadName(base, signed) == base + "-signed.pdf" <==> signed
    ensures DownloadName(base, signed) == base + ".pdf" <==> !signed
    ensures EndsWith(DownloadName(base, signed), "-signed.pdf") <==> signed || EndsWith(base, "-signed")
  {
    var name := DownloadName(base, signed);
    if !signed {
      assert |name| == |base| + 4;
      assert name[..|base|] == base;
      if EndsWith(name, "-signed.pdf") {
        assert |base| >= 7;
        assert base[|base| - 7..] == name[|name| - 11..|name| - 4];
      }
      if EndsWith(base, "-signed") {
        assert name[|name| - 11..] == base[|base| - 7..] + ".pdf";
      }
    } else {
      assert name[|name| - 11..] == "-signed.pdf";
    }
  }

  /** An unsigned file whose own name already ends in "-signed" is offered
      under a "-signed.pdf" name. */
  lemma UnsignedLooksSigned()
    ensures EndsWith(DownloadName(BaseName("contract-signed.pdf"), false), "-signed.pdf")
  {
    var name := "contract-signed.pdf";
    assert EndsWithPdf(name) by { assert Lower(name[|name| - 4..]) == ".pdf"; }
    assert BaseName(name) == "contract-signed";
    SignedNameIff("contract-signed", false);
  }

  /** An unsigned download of a file named `<stem>.pdf` is offered under its
      original name; any other non-empty name gets ".pdf" appended. */
  lemma UnsignedRoundTrip(name: string)
    requires name != ""
    ensures EndsWith(name, ".pdf") && |name| > 4 ==> DownloadName(BaseName(name), false) == name
    ensures !EndsWithPdf(name) ==> DownloadName(BaseName(name), false) == name + ".pdf"
  {
    if EndsWith(name, ".pdf") && |name| > 4 {
      var tail := name[|name| - 4..];
      assert Lower(tail) == tail by {
        assert tail == ".pdf";
      }
      assert name[..|name| - 4] + ".pdf" == name;
    }
  }

  // ---------------------------------------------------------------------------
  // Byte comparison

  /** `arraysEqual`: false when either buffer is missing, otherwise whether
      the two have the same length and agree at every index. */
  method ArraysEqual(a: Option<Bytes>, b: Option<Bytes>) returns (equal: bool)
    ensures equal <==> a.Some? && b.Some? && a.value == b.value
  {
    if a.None? || b.None? {
      return false;
    }
    var x, y := a.value, b.value;
    if |x| != |y| {
      return false;
    }
    var i := 0;
    while i < |x|
      invariant 0 <= i <= |x|
      invariant forall k :: 0 <= k < i ==> x[k] == y[k]
    {
      if x[i] != y[i] {
        return false;
      }
      i := i + 1;
    }
    return true;
  }
}

=== FILE: geometry.dfy ===
/** Points, sizes and the two-step clamp both front-ends use for positions. */
module Geometry {

  /** A position: viewer pixels (left, top) or page points (x, y from bottom-left). */
  datatype Point = Point(x: real, y: real)

  /** A width and a height, in pixels or in page points. */
  datatype Size = Size(width: real, height: real)

  /** `if (v < lo) v = lo; if (v > hi) v = hi;` — the lower bound is applied
      first and the upper bound last, so when `hi < lo` the result is `hi`. */
  function Clamp(v: real, lo: real, hi: real): (r: real)
    ensures r <= hi
    ensures lo <= hi ==> lo <= r
    ensures lo <= v <= hi ==> r == v
    ensures v < lo && lo <= hi ==> r == lo
    ensures hi < v ==> r == hi
    ensures hi < lo ==> r == hi
  {
    var raised := if v < lo then lo else v;
    if raised > hi then hi else raised
  }

  /** Clamping an already clamped value changes nothing, even when `hi < lo`. */
  lemma ClampIdempotent(v: real, lo: real, hi: real)
    ensures Clamp(Clamp(v, lo, hi), lo, hi) == Clamp(v, lo, hi)
  {
  }

  lemma ClampMonotone(u: real, v: real, lo: real, hi: real)
    requires u <= v
    ensures Clamp(u, lo, hi) <= Clamp(v, lo, hi)
  {
  }
}

=== FILE: overlay.dfy ===
/**
 * The drag-positioned front-end (public/app.js): where the signature overlay
 * starts, how dragging moves it, and how its position in the viewer becomes
 * the point on the last page where the signer's name is drawn.
 */
module Overlay {
  import opened Basics
  import opened Geometry

  /** JavaScript's `n || fallback` on a client width or height. */
  function OrDefault(n: nat, fallback: real): real {
    if n == 0 then fallback else n as real
  }

  // ---------------------------------------------------------------------------
  // Default placement (placeSignatureDefault)

  /** Nominal overlay box and margin used for the default spot. */
  const ApproxWidth: real := 200.0
  const ApproxHeight: real := 50.0
  const EdgeGap: real := 40.0
  const MinOffset: real := 20.0

  /** The bottom-right default spot: 40px inside the right and bottom edges of
      the viewer (800x600 when it reports no size), but never closer than 20px
      to its left and top edges. */
  function DefaultPlacement(clientWidth: nat, clientHeight: nat): (p: Point)
    ensures p.x >= MinOffset && p.x + ApproxWidth + EdgeGap >= OrDefault(clientWidth, 800.0)
    ensures p.x == MinOffset || p.x + ApproxWidth + EdgeGap == OrDefault(clientWidth, 800.0)
    ensures p.y >= MinOffset && p.y + ApproxHeight + EdgeGap >= OrDefault(clientHeight, 600.0)
    ensures p.y == MinOffset || p.y + ApproxHeight + EdgeGap == OrDefault(clientHeight, 600.0)
  {
    var width := OrDefault(clientWidth, 800.0);
    var height := OrDefault(clientHeight, 600.0);
    var left := width - ApproxWidth - EdgeGap;
    var top := height - ApproxHeight - EdgeGap;
    Point(if left < MinOffset then MinOffset else left, if top < MinOffset then MinOffset else top)
  }

  // ---------------------------------------------------------------------------
  // Dragging (onSignatureMouseDown / Move / Up)

  /** Margin kept between the overlay and every edge of the viewer while dragging. */
  const DragMargin: real := 10.0

  /** Drag state: where the pointer went down and where the overlay was then. */
  datatype Drag = Idle | Dragging(grab: Point, from: Point)

  /** The overlay position for a pointer displacement `(dx, dy)` since the drag
      started: start position plus displacement, kept 10px inside the viewer. */
  function DragTo(from: Point, dx: real, dy: real, viewer: Size, overlay: Size): (p: Point)
    ensures p.x <= viewer.width - overlay.width - DragMargin
    ensures p.y <= viewer.height - overlay.height - DragMargin
    ensures viewer.width - overlay.width - DragMargin >= DragMargin ==> p.x >= DragMargin
    ensures viewer.height - overlay.height - DragMargin >= DragMargin ==> p.y >= DragMargin
    ensures DragMargin <= from.x + dx <= viewer.width - overlay.width - DragMargin ==> p.x == from.x + dx
    ensures DragMargin <= from.y + dy <= viewer.height - overlay.height - DragMargin ==> p.y == from.y + dy
  {
    var maxLeft := viewer.width - overlay.width - DragMargin;
    var maxTop := viewer.height - overlay.height - DragMargin;
    Point(Clamp(from.x + dx, DragMargin, maxLeft), Clamp(from.y + dy, DragMargin, maxTop))
  }

  /** Re-applying the drag clamp to its own output, with no pointer movement,
      leaves the overlay where it is. */
  lemma DragSettled(from: Point, dx: real, dy: real, viewer: Size, overlay: Size)
    ensures var p := DragTo(from, dx, dy, viewer, overlay);
            DragTo(p, 0.0, 0.0, viewer, overlay) == p
  {
    var p := DragTo(from, dx, dy, viewer, overlay);
    ClampIdempotent(from.x + dx, DragMargin, viewer.width - overlay.width - DragMargin);
    ClampIdempotent(from.y + dy, DragMargin, viewer.height - overlay.height - DragMargin);
    assert p.x + 0.0 == p.x && p.y + 0.0 == p.y;
  }

  /** Dragging further right or down never moves the overlay left or up. */
  lemma DragMonotone(from: Point, dx: real, dx': real, dy: real, dy': real, viewer: Size, overlay: Size)
    requires dx <= dx' && dy <= dy'
    ensures DragTo(from, dx, dy, viewer, overlay).x <= DragTo(from, dx', dy', viewer, overlay).x
    ensures DragTo(from, dx, dy, viewer, overlay).y <= DragTo(from, dx', dy', viewer, overlay).y
  {
    ClampMonotone(from.x + dx, from.x + dx', DragMargin, viewer.width - overlay.width - DragMargin);
    ClampMonotone(from.y + dy, from.y + dy', DragMargin, viewer.height - overlay.height - DragMargin);
  }

  // ---------------------------------------------------------------------------
  // Overlay position to page point (applySignatureToPdf)

  /** The overlay size the mapping assumes for the on-screen pill. */
  const OverlayWidth: real := 160.0
  const OverlayHeight: real := 32.0
  /** Fallback offsets from the right and bottom edges when no position is recorded. */
  const FallbackRight: real := 240.0
  const FallbackBottom: real := 80.0
  /** The name is drawn 60pt left of the mapped centre. */
  const HalfBlock: real := 60.0
  /** Safe interior of the page: 40pt from the left, bottom and top edges and
      160pt from the right edge. */
  const PageMargin: real := 40.0
  const RightReserve: real := 160.0

  /** A centre offset as a fraction of the viewer extent, clamped to [0, 1]. */
  function Ratio(offset: real, extent: real): (r: real)
    requires extent >= 1.0
    ensures 0.0 <= r <= 1.0
    ensures 0.0 <= offset / extent <= 1.0 ==> r == offset / extent
    ensures offset <= 0.0 ==> r == 0.0
    ensures offset >= extent ==> r == 1.0
  {
    if offset >= extent then
      assert offset / extent >= 1.0 by { DivideAtLeast(offset, extent); }
      1.0
    else
      Clamp(offset / extent, 0.0, 1.0)
  }

  lemma DivideAtLeast(a: real, b: real)
    requires b >= 1.0 && a >= b
    ensures a / b >= 1.0
  {
    assert a / b * b == a;
    if a / b < 1.0 {
      assert a / b * b < b;
    }
  }

  /** Horizontal centre ratio of the overlay in the viewer. */
  function RatioX(position: Option<Point>, clientWidth: nat): (r: real)
    ensures 0.0 <= r <= 1.0
  {
    var width := OrDefault(clientWidth, 1.0);
    var left := if position.Some? then position.value.x else width - FallbackRight;
    Ratio(left + OverlayWidth / 2.0, width)
  }

  /** Vertical centre ratio of the overlay in the viewer, measured from the top. */
  function RatioY(position: Option<Point>, clientHeight: nat): (r: real)
    ensures 0.0 <= r <= 1.0
  {
    var height := OrDefault(clientHeight, 1.0);
    var top := if position.Some? then position.value.y else height - FallbackBottom;
    Ratio(top + OverlayHeight / 2.0, height)
  }

  /** The page point for the signer's name.  The upper clamp is applied last,
      so the right and top bounds always hold, and the left and bottom bounds
      hold once the page is at least 200pt wide and 80pt tall. */
  function PageAnchor(position: Option<Point>, clientWidth: nat, clientHeight: nat, page: Size): (a: Point)
    ensures a.x <= page.width - RightReserve
    ensures a.y <= page.height - PageMargin
    ensures page.width >= PageMargin + RightReserve ==> PageMargin <= a.x
    ensures page.height >= 2.0 * PageMargin ==> PageMargin <= a.y
  {
    Point(AnchorX(RatioX(position, clientWidth), page.width),
          AnchorY(RatioY(position, clientHeight), page.height))
  }

  /** Page x for a horizontal centre ratio: the centre scaled to the page width,
      60pt to the left, clamped into [40, width - 160]. */
  function AnchorX(ratio: real, width: real): (x: real)
    ensures x <= width - RightReserve
    ensures width >= PageMargin + RightReserve ==> PageMargin <= x
  {
    Clamp(ratio * width - HalfBlock, PageMargin, width - RightReserve)
  }

  /** Page y for a vertical centre ratio measured from the top: flipped to the
      bottom-left origin and clamped into [40, height - 40]. */
  function AnchorY(ratio: real, height: real): (y: real)
    ensures y <= height - PageMargin
    ensures height >= 2.0 * PageMargin ==> PageMargin <= y
  {
    Clamp(height - ratio * height, PageMargin, height - PageMargin)
  }

  /** Inside the safe interior the name lands exactly on the linear image of
      the overlay centre, with the vertical axis flipped. */
  lemma AnchorIsLinear(position: Option<Point>, clientWidth: nat, clientHeight: nat, page: Size)
    requires var x := RatioX(position, clientWidth) * page.width - HalfBlock;
             PageMargin <= x <= page.width - RightReserve
    requires var y := page.height - RatioY(position, clientHeight) * page.height;
             PageMargin <= y <= page.height - PageMargin
    ensures PageAnchor(position, clientWidth, clientHeight, page)
         == Point(RatioX(position, clientWidth) * page.width - HalfBlock,
                  (1.0 - RatioY(position, clientHeight)) * page.height)
  {
  }

  lemma ScaleMonotone(r: real, r': real, k: real)
    requires r <= r' && k >= 0.0
    ensures r * k <= r' * k
  {
  }

  lemma RatioMonotone(o: real, o': real, extent: real)
    requires o <= o' && extent >= 1.0
    ensures Ratio(o, extent) <= Ratio(o', extent)
  {
    DivideMonotone(o, o', extent);
    ClampMonotone(o / extent, o' / extent, 0.0, 1.0);
  }

  lemma DivideMonotone(o: real, o': real, extent: real)
    requires o <= o' && extent > 0.0
    ensures o / extent <= o' / extent
  {
    var d := o' / extent - o / extent;
    assert d == (o' - o) / extent;
    assert d * extent == o' - o;
  }

  /** Moving the overlay right never moves the name left on the page. */
  lemma AnchorXMonotone(p: Point, p': Point, clientWidth: nat, clientHeight: nat, page: Size)
    requires p.x <= p'.x && page.width >= 0.0
    ensures PageAnchor(Some(p), clientWidth, clientHeight, page).x
         <= PageAnchor(Some(p'), clientWidth, clientHeight, page).x
  {
    RatioMonotone(p.x + OverlayWidth / 2.0, p'.x + OverlayWidth / 2.0, OrDefault(clientWidth, 1.0));
    AnchorXGrows(RatioX(Some(p), clientWidth), RatioX(Some(p'), clientWidth), page.width);
  }

  lemma AnchorXGrows(r: real, r': real, width: real)
    requires r <= r' && width >= 0.0
    ensures AnchorX(r, width) <= AnchorX(r', width)
  {
    ScaleMonotone(r, r', width);
    assert r * width - HalfBlock <= r' * width - HalfBlock;
    ClampMonotone(r * width - HalfBlock, r' * width - HalfBlock, PageMargin, width - RightReserve);
  }

  /** Moving the overlay down the viewer never moves the name up the page:
      viewer y grows downwards, page y grows upwards. */
  lemma AnchorYAntitone(p: Point, p': Point, clientWidth: nat, clientHeight: nat, page: Size)
    requires p.y <= p'.y && page.height >= 0.0
    ensures PageAnchor(Some(p'), clientWidth, clientHeight, page).y
         <= PageAnchor(Some(p), clientWidth, clientHeight, page).y
  {
    RatioMonotone(p.y + OverlayHeight / 2.0, p'.y + OverlayHeight / 2.0, OrDefault(clientHeight, 1.0));
    AnchorYFalls(RatioY(Some(p), clientHeight), RatioY(Some(p'), clientHeight), page.height);
  }

  lemma AnchorYFalls(r: real, r': real, height: real)
    requires r <= r' && height >= 0.0
    ensures AnchorY(r', height) <= AnchorY(r, height)
  {
    ScaleMonotone(r, r', height);
    assert height - r' * height <= height - r * height;
    ClampMonotone(height - r' * height, height - r * height, PageMargin, height - PageMargin);
  }

  /** An overlay dragged against the top of the viewer puts the name at the top
      of the safe interior; against the bottom, at its bottom. */
  lemma AnchorVerticalExtremes(p: Point, clientWidth: nat, clientHeight: nat, page: Size)
    requires page.height >= 2.0 * PageMargin
    ensures p.y + OverlayHeight / 2.0 <= 0.0 ==>
              PageAnchor(Some(p), clientWidth, clientHeight, page).y == page.height - PageMargin
    ensures p.y + OverlayHeight / 2.0 >= OrDefault(clientHeight, 1.0) ==>
              PageAnchor(Some(p), clientWidth, clientHeight, page).y == PageMargin
  {
  }

  /** Re-clamping the anchor into the safe interior changes nothing. */
  lemma AnchorSettled(position: Option<Point>, clientWidth: nat, clientHeight: nat, page: Size)
    ensures var a := PageAnchor(position, clientWidth, clientHeight, page);
            Clamp(a.x, PageMargin, page.width - RightReserve) == a.x
            && Clamp(a.y, PageMargin, page.height - PageMargin) == a.y
  {
    ClampIdempotent(RatioX(position, clientWidth) * page.width - HalfBlock, PageMargin, page.width - RightReserve);
    ClampIdempotent(page.height - RatioY(position, clientHeight) * page.height, PageMargin, page.height - PageMargin);
  }

  /** On a page narrower than 200pt the name starts left of the 40pt margin. */
  lemma NarrowPageEscapesMargin()
    ensures PageAnchor(Some(Point(0.0, 0.0)), 800, 600, Size(100.0, 100.0)).x < PageMargin
  {
  }
}

=== FILE: pdf.dfy ===
/**
 * What a stamp draws on a document, as a list of marks, and the optional
 * title-and-notes block both front-ends put on the first page.  The PDF
 * engine itself (parsing, font embedding, saving) is outside the model: a
 * document is its page sizes, and a stamp is the marks it would draw.
 */
module Pdf {
  import opened Text
  import opened Wrap
  import opened Geometry

  datatype Font = Helvetica | HelveticaBold

  /** One drawing call: a text run with its baseline origin, or a rectangle
      given by its bottom-left corner.  `page` indexes the document's pages. */
  datatype Mark =
    | Label(page: nat, text: string, at: Point, size: real, font: Font)
    | Rectangle(page: nat, corner: Point, extent: Size)

  /** The four form fields: signer name and title, document title and notes. */
  datatype Form = Form(signerName: string, signerTitle: string, docTitle: string, docNotes: string)

  /** Both stamps trim every field as typed before drawing anything. */
  function Clean(form: Form): (f: Form)
    ensures Tidy(f.signerName) && Tidy(f.signerTitle) && Tidy(f.docTitle) && Tidy(f.docNotes)
    ensures f.signerName == "" <==> AllSpace(form.signerName)
    ensures f.signerTitle == "" <==> AllSpace(form.signerTitle)
    ensures f.docTitle == "" <==> AllSpace(form.docTitle)
    ensures f.docNotes == "" <==> AllSpace(form.docNotes)
  {
    Form(Trim(form.signerName), Trim(form.signerTitle), Trim(form.docTitle), Trim(form.docNotes))
  }

  /** Cleaning an already cleaned form changes nothing. */
  lemma CleanIdempotent(form: Form)
    ensures Clean(Clean(form)) == Clean(form)
  {
  }

  /** A document as far as stamping is concerned: its page sizes, in order,
      and the marks drawn on it so far. */
  datatype Document = Document(pages: seq<Size>, marks: seq<Mark>)

  datatype StampError = NoPages

  /** Draws `marks` on top of `doc`: the pages stay as they are and the
      earlier marks stay underneath. */
  function Draw(doc: Document, marks: seq<Mark>): (r: Document)
    ensures r.pages == doc.pages
    ensures |r.marks| == |doc.marks| + |marks|
    ensures r.marks[..|doc.marks|] == doc.marks && r.marks[|doc.marks|..] == marks
  {
    Document(doc.pages, doc.marks + marks)
  }

  /** Every mark lands on a page the document has. */
  predicate OnPages(marks: seq<Mark>, pageCount: nat) {
    forall i :: 0 <= i < |marks| ==> marks[i].page < pageCount
  }

  lemma OnPagesAppend(a: seq<Mark>, b: seq<Mark>, pageCount: nat)
    requires OnPages(a, pageCount) && OnPages(b, pageCount)
    ensures OnPages(a + b, pageCount)
  {
    forall i | 0 <= i < |a + b|
      ensures (a + b)[i].page < pageCount
    {
      if i >= |a| {
        Shift(a, b, i - |a|);
      }
    }
  }

  /** `toISOString().slice(0, 10)`: the first ten characters of the clock's
      timestamp, the YYYY-MM-DD day. */
  function Day(iso: string): (day: string)
    ensures |day| == if |iso| < 10 then |iso| else 10
    ensures day == iso[..|day|]
  {
    if |iso| < 10 then iso else iso[..10]
  }

  // ---------------------------------------------------------------------------
  // Title and notes block

  const TitleSize: real := 14.0
  const NotesSize: real := 9.0
  /** The notes are wrapped at this many characters per line. */
  const NotesWidth: int := 90
  /** Each notes line sits this far below the one before. */
  const NotesLeading: real := 11.0

  /** Where a front-end puts the block: left edge `x`, first baseline `top`
      below which the title is drawn `titleDrop` lower, and the notes start
      `gap` below `top` when there is a title. */
  datatype HeaderStyle = HeaderStyle(x: real, top: real, titleDrop: real, gap: real)

  /** The notes lines, top down, each `NotesLeading` below the previous. */
  function Column(lines: seq<string>, x: real, y: real): (marks: seq<Mark>)
    ensures |marks| == |lines|
    ensures forall i :: 0 <= i < |lines| ==>
              marks[i] == Label(0, lines[i], Point(x, y - NotesLeading * i as real), NotesSize, Helvetica)
    decreases |lines|
  {
    if lines == [] then []
    else [Label(0, lines[0], Point(x, y), NotesSize, Helvetica)] + Column(lines[1..], x, y - NotesLeading)
  }

  /** The wrapped notes lines; empty notes give no lines. */
  function NotesLines(notes: string): seq<string> {
    if notes != "" then WrapText(notes, NotesWidth) else []
  }

  /** The bold title mark, when there is a title. */
  function Heading(style: HeaderStyle, title: string): (marks: seq<Mark>)
    ensures |marks| == TitleCount(title)
    ensures title != "" ==> marks[0] == Label(0, title, Point(style.x, style.top - style.titleDrop), TitleSize, HelveticaBold)
    ensures |marks| <= 1 && (marks == [] <==> title == "")
    ensures forall i :: 0 <= i < |marks| ==>
              marks[i].Label? && marks[i].page == 0 && marks[i].font == HelveticaBold
              && marks[i].text == title && marks[i].at.y == style.top - style.titleDrop
  {
    if title != "" then [Label(0, title, Point(style.x, style.top - style.titleDrop), TitleSize, HelveticaBold)] else []
  }

  /** The title mark, when there is a title, then the given notes lines. */
  function Block(style: HeaderStyle, title: string, lines: seq<string>): (marks: seq<Mark>)
    ensures forall i :: 0 <= i < |marks| ==> marks[i].Label? && marks[i].page == 0 && marks[i].at.x == style.x
  {
    Heading(style, title) + Column(lines, style.x, NotesTop(style, title))
  }

  /** The optional block on the first page for an already trimmed title and
      notes text; drawn only when at least one of them is non-empty. */
  function Header(style: HeaderStyle, title: string, notes: string): (marks: seq<Mark>)
    ensures forall i :: 0 <= i < |marks| ==> marks[i].Label? && marks[i].page == 0 && marks[i].at.x == style.x
  {
    if title == "" && notes == "" then [] else Block(style, title, NotesLines(notes))
  }

  /** Number of title marks in the block: one for a non-empty title. */
  function TitleCount(title: string): nat {
    if title != "" then 1 else 0
  }

  /** Baseline of the first notes line. */
  function NotesTop(style: HeaderStyle, title: string): real {
    if title != "" then style.top - style.gap else style.top
  }

  lemma BlockLayout(style: HeaderStyle, title: string, lines: seq<string>)
    ensures |Block(style, title, lines)| == TitleCount(title) + |lines|
    ensures title != "" ==> Block(style, title, lines)[0] == Label(0, title, Point(style.x, style.top - style.titleDrop), TitleSize, HelveticaBold)
    ensures forall i :: 0 <= i < |lines| ==>
              Block(style, title, lines)[TitleCount(title) + i]
              == Label(0, lines[i], Point(style.x, NotesTop(style, title) - NotesLeading * i as real), NotesSize, Helvetica)
  {
    var heading := Heading(style, title);
    var column := Column(lines, style.x, NotesTop(style, title));
    var marks := Block(style, title, lines);
    assert marks == heading + column;
    forall i | 0 <= i < |lines|
      ensures marks[TitleCount(title) + i]
              == Label(0, lines[i], Point(style.x, NotesTop(style, title) - NotesLeading * i as real), NotesSize, Helvetica)
    {
      Shift(heading, column, i);
    }
  }

  lemma Shift<T>(a: seq<T>, b: seq<T>, i: nat)
    requires i < |b|
    ensures (a + b)[|a| + i] == b[i]
  {
  }

  /** The block holds the title (bold, size 14) followed by the wrapped notes
      (size 9) at the block's left edge on the first page, each line 11pt
      below the previous, the first notes line `gap` below the top when a
      title is present; nothing at all when both are empty. */
  lemma HeaderLayout(style: HeaderStyle, title: string, notes: string)
    ensures var marks := Header(style, title, notes);
            var k := TitleCount(title);
            var lines := WrapText(notes, NotesWidth);
            && |marks| == k + |lines|
            && (title == "" && notes == "" ==> marks == [])
            && (title != "" ==> marks[0] == Label(0, title, Point(style.x, style.top - style.titleDrop), TitleSize, HelveticaBold))
            && (forall i :: 0 <= i < |lines| ==>
                  marks[k + i] == Label(0, lines[i], Point(style.x, NotesTop(style, title) - NotesLeading * i as real), NotesSize, Helvetica))
  {
    var lines := WrapText(notes, NotesWidth);
    assert NotesLines(notes) == lines;
    if !(title == "" && notes == "") {
      BlockLayout(style, title, lines);
    }
  }

  lemma BlockDescends(style: HeaderStyle, title: string, lines: seq<string>)
    requires style.gap > style.titleDrop
    ensures var marks := Block(style, title, lines);
            forall i, j :: 0 <= i < j < |marks| ==> marks[j].at.y < marks[i].at.y
  {
    BlockLayout(style, title, lines);
    var marks := Block(style, title, lines);
    var k := TitleCount(title);
    var top := NotesTop(style, title);
    forall i, j | 0 <= i < j < |marks|
      ensures marks[j].at.y < marks[i].at.y
    {
      assert marks[j].at.y == top - NotesLeading * (j - k) as real;
      if i < k {
        assert marks[i].at.y == style.top - style.titleDrop;
      } else {
        assert marks[i].at.y == top - NotesLeading * (i - k) as real;
      }
    }
  }

  /** When the title sits above the notes, every baseline of the block is
      strictly below the one drawn before it, so no two lines overprint. */
  lemma HeaderDescends(style: HeaderStyle, title: string, notes: string)
    requires style.gap > style.titleDrop
    ensures var marks := Header(style, title, notes);
            forall i, j :: 0 <= i < j < |marks| ==> marks[j].at.y < marks[i].at.y
  {
    if !(title == "" && notes == "") {
      BlockDescends(style, title, NotesLines(notes));
    }
  }

  /** Every notes line of the block is at most 90 characters, or a single
      word longer than that; the notes' words all survive, in order. */
  lemma HeaderNotesFit(style: HeaderStyle, title: string, notes: string)
    ensures var marks := Header(style, title, notes);
            forall i :: TitleCount(title) <= i < |marks| ==>
              |marks[i].text| <= NotesWidth || IsWord(marks[i].text)
    ensures Words(JoinSp(WrapText(notes, NotesWidth))) == Words(notes)
  {
    HeaderLayout(style, title, notes);
    LinesFit(notes, NotesWidth);
    WordsRoundTrip(notes, NotesWidth);
    var marks := Header(style, title, notes);
    var k := TitleCount(title);
    var lines := WrapText(notes, NotesWidth);
    forall i | k <= i < |marks|
      ensures |marks[i].text| <= NotesWidth || IsWord(marks[i].text)
    {
      assert marks[i].text == lines[i - k];
    }
  }

  lemma HeaderOnPages(style: HeaderStyle, title: string, notes: string, pageCount: nat)
    requires pageCount >= 1
    ensures OnPages(Header(style, title, notes), pageCount)
  {
  }

  /** For trimmed notes, the block is empty exactly when both the title and
      the notes are empty: non-blank notes always produce a line. */
  lemma HeaderEmptyIff(style: HeaderStyle, title: string, notes: string)
    requires Tidy(notes)
    ensures Header(style, title, notes) == [] <==> title == "" && notes == ""
  {
    HeaderLayout(style, title, notes);
    if notes != "" {
      assert Trim(notes) == notes;
      NonBlankHasLines(notes, NotesWidth);
    }
  }
}

=== FILE: studio_session.dfy ===
/**
 * The session controller of the drag-positioned front-end (public/app.js):
 * the page's state (the loaded and the current bytes, the base name, the
 * "signed" flag, the overlay position and the drag in progress) and how each
 * user or browser event changes it, plus what the download button offers.
 */
module StudioSession {
  import opened Basics
  import opened Text
  import opened Geometry
  import opened Overlay
  import opened Files

  /** What the page found when it started: whether the PDF engine loaded and
      whether the draggable signature overlay exists in the markup. */
  datatype Config = Config(engineLoaded: bool, overlayPresent: bool)

  /** The controller's state. `placement` is the overlay's position in the
      viewer (`sigPosition`), absent until it is first placed; `enabled`
      stands for the apply and download buttons, which are always switched
      together. */
  datatype Session = Session(
    original: Option<Bytes>,
    current: Option<Bytes>,
    baseName: string,
    signed: bool,
    placement: Option<Point>,
    drag: Drag,
    enabled: bool)

  /** The state before any event. */
  const Start := Session(None, None, "", false, None, Idle, false)

  /** The events the controller reacts to. Each carries what the browser
      reports at that moment: the chosen file, the bytes read, the pointer,
      the viewer's client size or bounding boxes, the signer-name field and
      the outcome of stamping (the new bytes, or None when stamping threw). */
  datatype Event =
    | Chose(file: Option<FileInfo>)
    | ReadDone(bytes: Bytes, clientWidth: nat, clientHeight: nat)
    | ReadFailed
    | Press(pointer: Point)
    | Move(pointer: Point, viewer: Size, overlay: Size)
    | Release
    | Apply(signerName: string, outcome: Option<Bytes>, clientWidth: nat, clientHeight: nat)

  /** Why the apply button refused to sign, in the order `validateBeforeSign` looks at them. */
  datatype Rejection = NoDocument | EngineMissing | NameRequired | NotPlaced

  /** The overlay position after a preview update: the default spot when the
      overlay exists, otherwise unchanged. */
  function Replace(cfg: Config, placement: Option<Point>, clientWidth: nat, clientHeight: nat): (p: Option<Point>)
    ensures cfg.overlayPresent ==> p == Some(DefaultPlacement(clientWidth, clientHeight))
    ensures !cfg.overlayPresent ==> p == placement
    ensures cfg.overlayPresent ==> p.Some? && p.value.x >= 20.0 && p.value.y >= 20.0
    ensures cfg.overlayPresent && clientWidth >= 260 ==> p.value.x + 240.0 == clientWidth as real
    ensures cfg.overlayPresent && clientHeight >= 110 ==> p.value.y + 90.0 == clientHeight as real
  {
    if cfg.overlayPresent then Some(DefaultPlacement(clientWidth, clientHeight)) else placement
  }

  /** `validateBeforeSign`: the first condition that fails, or None when signing
      may go ahead. The signer name counts as missing when trimming empties
      it, which by `Trim`'s contract is when it is whitespace only. */
  function Validate(cfg: Config, s: Session, signerName: string): (r: Option<Rejection>)
    ensures r.None? <==> s.current.Some? && cfg.engineLoaded && !AllSpace(signerName)
                         && (cfg.overlayPresent ==> s.placement.Some?)
    ensures r == Some(NoDocument) <==> s.current.None?
    ensures r == Some(EngineMissing) <==> s.current.Some? && !cfg.engineLoaded
    ensures r == Some(NameRequired) <==> s.current.Some? && cfg.engineLoaded && AllSpace(signerName)
    ensures r == Some(NotPlaced) <==> s.current.Some? && cfg.engineLoaded && !AllSpace(signerName)
                                      && cfg.overlayPresent && s.placement.None?
  {
    if s.current.None? then Some(NoDocument)
    else if !cfg.engineLoaded then Some(EngineMissing)
    else if AllSpace(signerName) then Some(NameRequired)
    else if cfg.overlayPresent && s.placement.None? then Some(NotPlaced)
    else None
  }

  /** Whether `e` is an apply click that passes validation and whose stamp succeeds. */
  predicate SignsDocument(cfg: Config, s: Session, e: Event) {
    e.Apply? && Validate(cfg, s, e.signerName).None? && e.outcome.Some?
  }

  /** The state after one event.  The document (both buffers and the signed
      flag) changes only when no file is chosen, a read ends, or a stamp
      succeeds; the loaded bytes and the base name never change on apply; the
      base name changes only when a file is chosen; the overlay position
      changes only after a read, a drag move or a successful stamp. */
  function Step(cfg: Config, s: Session, e: Event): (r: Session)
    ensures !(e.Chose? && e.file.None?) && !e.ReadDone? && !e.ReadFailed? && !SignsDocument(cfg, s, e) ==>
              r.original == s.original && r.current == s.current && r.signed == s.signed
    ensures e.Apply? ==> r.original == s.original && r.baseName == s.baseName
    ensures !e.Chose? ==> r.baseName == s.baseName
    ensures !e.ReadDone? && !e.Move? && !SignsDocument(cfg, s, e) ==> r.placement == s.placement
  {
    match e
    case Chose(None) =>
      s.(original := None, current := None, baseName := "", signed := false, enabled := false)
    case Chose(Some(f)) =>
      if StudioAccepts(f) then s.(baseName := BaseName(f.name))
      else s.(enabled := false)
    case ReadDone(bytes, w, h) =>
      s.(original := Some(bytes), current := Some(bytes), signed := false,
         placement := Replace(cfg, s.placement, w, h), enabled := true)
    case ReadFailed =>
      s.(original := None, current := None, signed := false, enabled := false)
    case Press(pointer) =>
      if cfg.overlayPresent then s.(drag := Dragging(pointer, s.placement.OrElse(Point(0.0, 0.0))))
      else s
    case Move(pointer, viewer, overlay) =>
      if cfg.overlayPresent && s.drag.Dragging? then
        var d := s.drag;
        s.(placement := Some(DragTo(d.from, pointer.x - d.grab.x, pointer.y - d.grab.y, viewer, overlay)))
      else s
    case Release =>
      if cfg.overlayPresent then s.(drag := Idle) else s
    case Apply(name, outcome, w, h) =>
      if Validate(cfg, s, name).Some? then s
      else if outcome.Some? then
        s.(current := outcome, signed := true, placement := Replace(cfg, s.placement, w, h), enabled := true)
      else s.(enabled := true)
  }

  /** The state after a sequence of events, in order. */
  function Run(cfg: Config, s: Session, events: seq<Event>): Session
    decreases |events|
  {
    if events == [] then s else Run(cfg, Step(cfg, s, events[0]), events[1..])
  }

  /** `onDownloadClicked`: the bytes and file name offered, or None ("nothing
      to download yet") when no document is held. */
  function Offer(s: Session): (r: Option<(Bytes, string)>)
    ensures r.None? <==> s.current.None? && s.original.None?
    ensures r.Some? ==> r.value.1 == DownloadName(s.baseName, s.signed)
    ensures r.Some? && s.current.Some? ==> r.value.0 == s.current.value
    ensures r.Some? && s.current.None? ==> r.value.0 == s.original.value
  {
    if s.current.None? && s.original.None? then None
    else Some((if s.current.Some? then s.current.value else s.original.value, DownloadName(s.baseName, s.signed)))
  }

  // ---------------------------------------------------------------------------
  // The state invariant

  /** What holds of every reachable state: both buffers are held or neither;
      the buttons are live and the flag set only while a document is held;
      an unsigned document is still the loaded one; without an overlay there
      is never a position or a drag; with one, a held document always has a
      position, since every completed read places the overlay. */
  predicate Inv(cfg: Config, s: Session) {
    && (s.current.None? <==> s.original.None?)
    && (s.enabled ==> s.current.Some?)
    && (s.signed ==> s.current.Some?)
    && (!s.signed ==> s.current == s.original)
    && (!cfg.overlayPresent ==> s.placement.None? && s.drag.Idle?)
    && (cfg.overlayPresent && s.current.Some? ==> s.placement.Some?)
  }

  lemma StartInv(cfg: Config)
    ensures Inv(cfg, Start)
  {
  }

  /** Every event keeps the invariant. */
  lemma StepInv(cfg: Config, s: Session, e: Event)
    requires Inv(cfg, s)
    ensures Inv(cfg, Step(cfg, s, e))
  {
    match e
    case Chose(_) =>
    case ReadDone(_, _, _) =>
    case ReadFailed =>
    case Press(_) =>
    case Move(_, _, _) =>
    case Release =>
    case Apply(name, outcome, w, h) => ApplyInv(cfg, s, name, outcome, w, h);
  }

  /** Applying keeps the invariant: signing only happens while a document is held. */
  lemma ApplyInv(cfg: Config, s: Session, name: string, outcome: Option<Bytes>, w: nat, h: nat)
    requires Inv(cfg, s)
    ensures Inv(cfg, Step(cfg, s, Apply(name, outcome, w, h)))
  {
    if Validate(cfg, s, name).None? {
      assert s.current.Some?;
      if outcome.Some? {
        var t := s.(current := outcome, signed := true, placement := Replace(cfg, s.placement, w, h), enabled := true);
        assert Step(cfg, s, Apply(name, outcome, w, h)) == t;
      }
    }
  }

  /** Any sequence of events keeps the invariant. */
  lemma {:induction false} RunInv(cfg: Config, s: Session, events: seq<Event>)
    requires Inv(cfg, s)
    ensures Inv(cfg, Run(cfg, s, events))
    decreases |events|
  {
    if events != [] {
      StepInv(cfg, s, events[0]);
      RunInv(cfg, Step(cfg, s, events[0]), events[1..]);
    }
  }

  // ---------------------------------------------------------------------------
  // Consequences

  /** The "overlay not placed" rejection never happens: from the start, no
      sequence of events reaches a state where validation refuses for it. */
  lemma {:induction false} NotPlacedUnreachable(cfg: Config, events: seq<Event>, name: string)
    ensures Validate(cfg, Run(cfg, Start, events), name) != Some(NotPlaced)
  {
    StartInv(cfg);
    RunInv(cfg, Start, events);
  }

  /** Until some read completes there is nothing to download. */
  lemma {:induction false} NothingBeforeLoad(cfg: Config, s: Session, events: seq<Event>)
    requires s.current.None? && s.original.None?
    requires forall i :: 0 <= i < |events| ==> !events[i].ReadDone?
    ensures Offer(Run(cfg, s, events)).None?
    decreases |events|
  {
    if events != [] {
      var next := Step(cfg, s, events[0]);
      assert next.current.None? && next.original.None?;
      assert forall i :: 0 <= i < |events[1..]| ==> !events[1..][i].ReadDone? by {
        forall i | 0 <= i < |events[1..]|
          ensures !events[1..][i].ReadDone?
        {
          assert events[1..][i] == events[i + 1];
        }
      }
      NothingBeforeLoad(cfg, next, events[1..]);
    }
  }

  /** A completed read offers exactly the bytes read, under the unsigned name. */
  lemma LoadOffersOriginal(cfg: Config, s: Session, bytes: Bytes, w: nat, h: nat)
    ensures Offer(Step(cfg, s, ReadDone(bytes, w, h))) == Some((bytes, DownloadName(s.baseName, false)))
  {
  }

  /** A blank or missing signer name makes the apply button do nothing to the
      state, whatever stamping would have produced. */
  lemma BlankNameChangesNothing(cfg: Config, s: Session, name: string, outcome: Option<Bytes>, w: nat, h: nat)
    requires AllSpace(name)
    ensures Step(cfg, s, Apply(name, outcome, w, h)) == s
  {
  }

  /** Any apply click that validation refuses (no document, engine missing,
      blank name, overlay not yet placed) leaves the state as it was. */
  lemma RejectedApplyChangesNothing(cfg: Config, s: Session, name: string, outcome: Option<Bytes>, w: nat, h: nat)
    requires Validate(cfg, s, name).Some?
    ensures Step(cfg, s, Apply(name, outcome, w, h)) == s
  {
  }

  /** When validation passes and stamping succeeds, the stamped bytes are
      offered under the "-signed.pdf" name and the overlay goes back to its
      default spot. */
  lemma ApplyOffersSigned(cfg: Config, s: Session, name: string, b: Bytes, w: nat, h: nat)
    requires Validate(cfg, s, name).None?
    ensures var t := Step(cfg, s, Apply(name, Some(b), w, h));
            && Offer(t) == Some((b, DownloadName(s.baseName, true)))
            && t.original == s.original
            && (cfg.overlayPresent ==> t.placement == Some(DefaultPlacement(w, h)))
  {
    var t := s.(current := Some(b), signed := true, placement := Replace(cfg, s.placement, w, h), enabled := true);
    assert Step(cfg, s, Apply(name, Some(b), w, h)) == t;
  }

  /** When stamping throws, only the buttons change: they are live again. */
  lemma ApplyFailureKeepsDocument(cfg: Config, s: Session, name: string, w: nat, h: nat)
    requires Validate(cfg, s, name).None?
    ensures Step(cfg, s, Apply(name, None, w, h)) == s.(enabled := true)
    ensures Offer(Step(cfg, s, Apply(name, None, w, h))) == Offer(s)
  {
  }

  /** A rejected file only disables the buttons: the previous document, its
      name and its signature state are all kept. */
  lemma RejectedFileKeepsDocument(cfg: Config, s: Session, f: FileInfo)
    requires !StudioAccepts(f)
    ensures Step(cfg, s, Chose(Some(f))) == s.(enabled := false)
    ensures Offer(Step(cfg, s, Chose(Some(f)))) == Offer(s)
  {
  }

  /** While a drag is in progress every pointer move leaves the overlay at
      least 10px inside the right and bottom edges of the viewer, and inside
      the left and top edges when the viewer has room. */
  lemma MoveStaysInside(cfg: Config, s: Session, pointer: Point, viewer: Size, overlay: Size)
    requires cfg.overlayPresent && s.drag.Dragging?
    ensures var p := Step(cfg, s, Move(pointer, viewer, overlay)).placement;
            && p.Some?
            && p.value.x <= viewer.width - overlay.width - DragMargin
            && p.value.y <= viewer.height - overlay.height - DragMargin
            && (viewer.width - overlay.width >= 2.0 * DragMargin ==> p.value.x >= DragMargin)
            && (viewer.height - overlay.height >= 2.0 * DragMargin ==> p.value.y >= DragMargin)
  {
  }

  /** Pressing, moving and releasing without moving the pointer, starting from a
      placed overlay that already lies inside the margins, leaves it in place. */
  lemma ClickWithoutMoving(cfg: Config, s: Session, pointer: Point, viewer: Size, overlay: Size)
    requires cfg.overlayPresent && s.placement.Some?
    requires DragMargin <= s.placement.value.x <= viewer.width - overlay.width - DragMargin
    requires DragMargin <= s.placement.value.y <= viewer.height - overlay.height - DragMargin
    ensures Run(cfg, s, [Press(pointer), Move(pointer, viewer, overlay), Release]).placement == s.placement
    ensures Run(cfg, s, [Press(pointer), Move(pointer, viewer, overlay), Release]).drag.Idle?
  {
    var events := [Press(pointer), Move(pointer, viewer, overlay), Release];
    var s1 := Step(cfg, s, Press(pointer));
    var s2 := Step(cfg, s1, Move(pointer, viewer, overlay));
    var s3 := Step(cfg, s2, Release);
    var p := s.placement.value;
    assert s2.placement == Some(DragTo(p, 0.0, 0.0, viewer, overlay));
    assert p.x + 0.0 == p.x && p.y + 0.0 == p.y;
    assert events[1..][1..] == [Release];
    assert Run(cfg, s2, [Release]) == s3;
    assert Run(cfg, s, events) == Run(cfg, s2, [Release]);
  }

  /** Without an overlay, pointer events change nothing. */
  lemma NoOverlayNoDrag(cfg: Config, s: Session, e: Event)
    requires !cfg.overlayPresent && (e.Press? || e.Move? || e.Release?)
    ensures Step(cfg, s, e) == s
  {
  }

  /** Choosing nothing forgets the document and its name: nothing is offered. */
  lemma ClearedOffersNothing(cfg: Config, s: Session)
    ensures Offer(Step(cfg, s, Chose(None))).None?
    ensures Step(cfg, s, Chose(None)).baseName == ""
  {
  }
}

=== FILE: studio_stamp.dfy ===
/**
 * The drag-positioned front-end's stamp (applySignatureToPdf in
 * public/app.js): the signer's name and a date line on the last page at the
 * mapped overlay position, and the optional title and notes on the first page.
 */
module StudioStamp {
  import opened Basics
  import opened Text
  import opened Geometry
  import opened Overlay
  import opened Pdf

  const NameSize: real := 18.0
  const MetaSize: real := 9.0
  /** The date line sits this far below the name's baseline. */
  const MetaDrop: real := 14.0

  /** Title 16pt below a 40pt top margin at x = 40; notes 26pt below the margin
      when there is a title. */
  function Style(firstPage: Size): HeaderStyle {
    HeaderStyle(40.0, firstPage.height - 40.0, 16.0, 26.0)
  }

  /** "Date: " and the day, then " · " and the signer's title when one is given. */
  function MetaLine(day: string, title: string): string {
    "Date: " + day + (if title != "" then " · " + title else "")
  }

  /** The name at the anchor and the date line below it, on page `last`. */
  function Signature(last: nat, at: Point, name: string, meta: string): (marks: seq<Mark>)
    ensures |marks| == 2 && marks[0].page == last && marks[1].page == last
  {
    [Label(last, name, at, NameSize, Helvetica),
     Label(last, meta, Point(at.x, at.y - MetaDrop), MetaSize, Helvetica)]
  }

  /** The marks drawn for the (already trimmed) form on a document with the
      given pages, or `NoPages` for a document without pages. */
  function Plan(pages: seq<Size>, form: Form, iso: string, position: Option<Point>,
                clientWidth: nat, clientHeight: nat): (r: Result<seq<Mark>, StampError>)
    ensures r.Failure? <==> pages == []
    ensures r.Success? ==> OnPages(r.value, |pages|) && |r.value| >= 2
  {
    if pages == [] then Failure(NoPages)
    else
      var last := |pages| - 1;
      var signature := Signature(last, PageAnchor(position, clientWidth, clientHeight, pages[last]),
                                 form.signerName, MetaLine(Day(iso), form.signerTitle));
      var header := Header(Style(pages[0]), form.docTitle, form.docNotes);
      HeaderOnPages(Style(pages[0]), form.docTitle, form.docNotes, |pages|);
      OnPagesAppend(signature, header, |pages|);
      Success(signature + header)
  }

  /** The stamp: trim the form, plan the marks, draw them.  The pages never
      change, the earlier marks stay, and it fails, drawing nothing, exactly
      when the document has no pages. */
  function Stamp(doc: Document, form: Form, iso: string, position: Option<Point>,
                 clientWidth: nat, clientHeight: nat): (r: Result<Document, StampError>)
    ensures r.Failure? <==> doc.pages == []
    ensures r.Success? ==> r.value.pages == doc.pages && |doc.marks| <= |r.value.marks|
    ensures r.Success? ==> r.value.marks[..|doc.marks|] == doc.marks
    ensures r.Success? ==> OnPages(r.value.marks[|doc.marks|..], |doc.pages|)
  {
    var plan := Plan(doc.pages, Clean(form), iso, position, clientWidth, clientHeight);
    if plan.Failure? then Failure(plan.error) else Success(Draw(doc, plan.value))
  }

  lemma PlanShape(pages: seq<Size>, form: Form, iso: string, position: Option<Point>,
                  clientWidth: nat, clientHeight: nat)
    requires pages != []
    ensures Plan(pages, form, iso, position, clientWidth, clientHeight).value
         == Signature(|pages| - 1, PageAnchor(position, clientWidth, clientHeight, pages[|pages| - 1]),
                      form.signerName, MetaLine(Day(iso), form.signerTitle))
            + Header(Style(pages[0]), form.docTitle, form.docNotes)
  {
  }

  /** The name is drawn at the mapped anchor on the last page, inside the safe
      interior when that page is at least 200 x 80, and the date line 14pt
      below it on the same page. */
  lemma PlanSignature(pages: seq<Size>, form: Form, iso: string, position: Option<Point>,
                      clientWidth: nat, clientHeight: nat)
    requires pages != []
    ensures var marks := Plan(pages, form, iso, position, clientWidth, clientHeight).value;
            var last := |pages| - 1;
            var at := PageAnchor(position, clientWidth, clientHeight, pages[last]);
            && marks[0] == Label(last, form.signerName, at, NameSize, Helvetica)
            && marks[1].Label? && marks[1].page == last && marks[1].at == Point(at.x, at.y - MetaDrop)
            && (pages[last].width >= 200.0 && pages[last].height >= 80.0 ==>
                  40.0 <= at.x <= pages[last].width - 160.0 && 40.0 <= at.y <= pages[last].height - 40.0)
  {
    PlanShape(pages, form, iso, position, clientWidth, clientHeight);
  }

  lemma MetaLineShape(day: string, title: string)
    ensures var meta := MetaLine(day, title);
            && |meta| >= 6 + |day|
            && meta[..6 + |day|] == "Date: " + day
            && (title != "" <==> |meta| > 6 + |day|)
            && (title != "" ==> meta[|meta| - |title|..] == title)
            && (title != "" ==> meta == "Date: " + day + " · " + title)
            && (title == "" ==> meta == "Date: " + day)
  {
    var head := "Date: " + day;
    if title != "" {
      var tail := " · " + title;
      assert MetaLine(day, title) == head + tail;
      assert (head + tail)[..|head|] == head;
      assert (head + tail)[|head + tail| - |title|..] == title;
    } else {
      assert MetaLine(day, title) == head;
    }
  }

  /** The date line starts with "Date: " and the day, and is longer than that
      exactly when the signer title is non-empty, which it then ends with. */
  lemma PlanDateLine(pages: seq<Size>, form: Form, iso: string, position: Option<Point>,
                     clientWidth: nat, clientHeight: nat)
    requires pages != []
    ensures var meta := Plan(pages, form, iso, position, clientWidth, clientHeight).value[1].text;
            && |meta| >= 6 + |Day(iso)|
            && meta[..6 + |Day(iso)|] == "Date: " + Day(iso)
            && (form.signerTitle != "" <==> |meta| > 6 + |Day(iso)|)
            && (form.signerTitle != "" ==> meta[|meta| - |form.signerTitle|..] == form.signerTitle)
            && (form.signerTitle != "" ==> meta == "Date: " + Day(iso) + " · " + form.signerTitle)
            && (form.signerTitle == "" ==> meta == "Date: " + Day(iso))
  {
    PlanShape(pages, form, iso, position, clientWidth, clientHeight);
    MetaLineShape(Day(iso), form.signerTitle);
  }

  /** Only the name's anchor is kept inside the margins: with the overlay at
      the bottom of the viewer the name sits at the 40pt floor and the date
      line 14pt lower, at 26. */
  lemma DateLineBelowMargin(iso: string)
    ensures var marks := Plan([Size(600.0, 800.0)], Form("Jane", "", "", ""), iso, Some(Point(0.0, 1000.0)), 800, 600).value;
            marks[0].at.y == 40.0 && marks[1].at.y == 26.0
  {
    var pages := [Size(600.0, 800.0)];
    var position := Some(Point(0.0, 1000.0));
    PlanSignature(pages, Form("Jane", "", "", ""), iso, position, 800, 600);
    AnchorVerticalExtremes(position.value, 800, 600, pages[0]);
  }

  /** Everything after the two signature marks is the title-and-notes block:
      on the first page at x = 40, and, for trimmed notes, absent exactly when
      the title and notes are both empty. */
  lemma PlanHeader(pages: seq<Size>, form: Form, iso: string, position: Option<Point>,
                   clientWidth: nat, clientHeight: nat)
    requires pages != [] && Tidy(form.docNotes)
    ensures var marks := Plan(pages, form, iso, position, clientWidth, clientHeight).value;
            && marks[2..] == Header(Style(pages[0]), form.docTitle, form.docNotes)
            && (forall i :: 2 <= i < |marks| ==> marks[i].Label? && marks[i].page == 0 && marks[i].at.x == 40.0)
            && (|marks| == 2 <==> form.docTitle == "" && form.docNotes == "")
  {
    PlanShape(pages, form, iso, position, clientWidth, clientHeight);
    var marks := Plan(pages, form, iso, position, clientWidth, clientHeight).value;
    var header := Header(Style(pages[0]), form.docTitle, form.docNotes);
    assert marks[2..] == header;
    HeaderEmptyIff(Style(pages[0]), form.docTitle, form.docNotes);
    forall i | 2 <= i < |marks|
      ensures marks[i].Label? && marks[i].page == 0 && marks[i].at.x == 40.0
    {
      assert marks[i] == header[i - 2];
    }
  }

  /** A one-page document signed with the title, document title and notes all
      blank (for instance by "Jane Doe" alone): the name and the bare date
      line, both on that one page, and nothing else. */
  lemma OnePageScenario(page: Size, form: Form, iso: string, position: Option<Point>,
                        clientWidth: nat, clientHeight: nat)
    requires form.signerTitle == "" && form.docTitle == "" && form.docNotes == ""
    ensures var marks := Plan([page], form, iso, position, clientWidth, clientHeight).value;
            |marks| == 2
            && marks[0].page == 0 && marks[0].text == form.signerName
            && marks[1].page == 0 && marks[1].text == "Date: " + Day(iso)
  {
    PlanHeader([page], form, iso, position, clientWidth, clientHeight);
    PlanSignature([page], form, iso, position, clientWidth, clientHeight);
    PlanDateLine([page], form, iso, position, clientWidth, clientHeight);
    var meta := Plan([page], form, iso, position, clientWidth, clientHeight).value[1].text;
    assert meta == meta[..6 + |Day(iso)|];
  }

  /** A three-page document with a title (for instance "Q1 Report") and any
      notes: the bold title is the third mark, on the first page 56pt below its
      top edge; every block mark is on the first page, and the two signature
      marks are on the third page. */
  lemma ThreePageScenario(pages: seq<Size>, form: Form, iso: string,
                          position: Option<Point>, clientWidth: nat, clientHeight: nat)
    requires |pages| == 3 && form.docTitle != "" && Tidy(form.docNotes)
    ensures var marks := Plan(pages, form, iso, position, clientWidth, clientHeight).value;
            && marks[0].page == 2 && marks[1].page == 2
            && marks[2] == Label(0, form.docTitle, Point(40.0, pages[0].height - 56.0), TitleSize, HelveticaBold)
            && (forall i :: 2 <= i < |marks| ==> marks[i].page == 0)
  {
    PlanSignature(pages, form, iso, position, clientWidth, clientHeight);
    PlanHeader(pages, form, iso, position, clientWidth, clientHeight);
    HeaderLayout(Style(pages[0]), form.docTitle, form.docNotes);
    var marks := Plan(pages, form, iso, position, clientWidth, clientHeight).value;
    assert marks[2] == marks[2..][0];
  }
}

=== FILE: text.dfy ===
/**
 * The JavaScript string built-ins the application leans on, over `seq<char>`:
 * `trim`, `split(/\s+/)`, `indexOf`, `toLowerCase`, a case-insensitive
 * `/\.pdf$/i` test, and joining words with single spaces.
 */
module Text {

  /** ECMAScript WhiteSpace and LineTerminator code points: exactly what the
      regular-expression class `\s` matches and what `trim` removes. */
  predicate IsSpace(c: char) {
    c in Whitespace || '\U{2000}' <= c <= '\U{200A}'
  }

  const Whitespace: set<char> :=
    {'\t', '\n', '\U{B}', '\U{C}', '\r', ' ', '\U{A0}', '\U{1680}', '\U{2028}', '\U{2029}',
     '\U{202F}', '\U{205F}', '\U{3000}', '\U{FEFF}'}

  predicate NoSpace(s: string) {
    forall i :: 0 <= i < |s| ==> !IsSpace(s[i])
  }

  predicate AllSpace(s: string) {
    forall i :: 0 <= i < |s| ==> IsSpace(s[i])
  }

  /** A non-empty run of non-whitespace characters. */
  predicate IsWord(w: string) {
    |w| > 0 && NoSpace(w)
  }

  /** Neither starts nor ends with whitespace; the empty string qualifies. */
  predicate Tidy(s: string) {
    s == "" || (!IsSpace(s[0]) && !IsSpace(s[|s| - 1]))
  }

  // ---------------------------------------------------------------------------
  // trim

  /** `s` without its leading whitespace. */
  function TrimStart(s: string): (r: string)
    ensures |r| <= |s| && r == s[|s| - |r|..]
    ensures AllSpace(s[..|s| - |r|])
    ensures r == "" || !IsSpace(r[0])
  {
    if |s| > 0 && IsSpace(s[0]) then
      var r := TrimStart(s[1..]);
      TrimStartStep(s, r);
      r
    else
      assert s[|s| - |s|..] == s && s[..|s| - |s|] == "";
      s
  }

  /** Dropping one more leading space keeps `TrimStart`'s promises. */
  lemma TrimStartStep(s: string, r: string)
    requires |s| > 0 && IsSpace(s[0])
    requires |r| <= |s[1..]| && r == s[1..][|s[1..]| - |r|..]
    requires AllSpace(s[1..][..|s[1..]| - |r|])
    ensures |r| <= |s| && r == s[|s| - |r|..]
    ensures AllSpace(s[..|s| - |r|])
  {
    var gap := s[..|s| - |r|];
    forall i | 0 < i < |gap|
      ensures IsSpace(gap[i])
    {
      assert gap[i] == s[1..][..|s[1..]| - |r|][i - 1];
    }
  }

  /** `s` without its trailing whitespace. */
  function TrimEnd(s: string): (r: string)
    ensures |r| <= |s| && r == s[..|r|]
    ensures AllSpace(s[|r|..])
    ensures r == "" || !IsSpace(r[|r| - 1])
  {
    if |s| > 0 && IsSpace(s[|s| - 1]) then
      var r := TrimEnd(s[..|s| - 1]);
      TrimEndStep(s, r);
      r
    else s
  }

  /** Dropping one more trailing space keeps `TrimEnd`'s promises. */
  lemma TrimEndStep(s: string, r: string)
    requires |s| > 0 && IsSpace(s[|s| - 1])
    requires |r| <= |s[..|s| - 1]| && r == s[..|s| - 1][..|r|]
    requires AllSpace(s[..|s| - 1][|r|..])
    ensures |r| <= |s| && r == s[..|r|]
    ensures AllSpace(s[|r|..])
  {
    var gap := s[|r|..];
    forall i | 0 <= i < |gap| - 1
      ensures IsSpace(gap[i])
    {
      assert gap[i] == s[..|s| - 1][|r|..][i];
    }
    assert gap[|gap| - 1] == s[|s| - 1];
  }

  /** `String.prototype.trim`. */
  function Trim(s: string): (r: string)
    ensures Tidy(r)
    ensures r == "" <==> AllSpace(s)
    ensures Tidy(s) ==> r == s
  {
    var t := TrimStart(s);
    var r := TrimEnd(t);
    assert r != "" ==> r[0] == t[0];
    assert t == "" ==> s[..|s|] == s;
    r
  }

  /** Trimming removes only surrounding whitespace: the result is a slice of
      `s` with nothing but whitespace before and after it. */
  lemma {:induction false} TrimKeepsMiddle(s: string)
    ensures var r := Trim(s);
            exists k :: 0 <= k <= |s| - |r| && r == s[k..k + |r|]
                        && AllSpace(s[..k]) && AllSpace(s[k + |r|..])
  {
    var t := TrimStart(s);
    assert Trim(s) == TrimEnd(t);
    MiddleSlice(s, t, Trim(s));
  }

  /** Whatever trimming both ends leaves is a slice of `s` between two
      whitespace runs. */
  lemma MiddleSlice(s: string, t: string, r: string)
    requires |t| <= |s| && t == s[|s| - |t|..] && AllSpace(s[..|s| - |t|])
    requires |r| <= |t| && r == t[..|r|] && AllSpace(t[|r|..])
    ensures exists k :: 0 <= k <= |s| - |r| && r == s[k..k + |r|]
                        && AllSpace(s[..k]) && AllSpace(s[k + |r|..])
  {
    var k := |s| - |t|;
    SliceMiddle(s, t, r, k);
    assert 0 <= k <= |s| - |r| && r == s[k..k + |r|] && AllSpace(s[..k]) && AllSpace(s[k + |r|..]);
  }

  /** The trimmed slice, located inside `s`. */
  lemma SliceMiddle(s: string, t: string, r: string, k: nat)
    requires k == |s| - |t| && |t| <= |s| && t == s[|s| - |t|..]
    requires |r| <= |t| && r == t[..|r|]
    ensures 0 <= k <= |s| - |r| && r == s[k..k + |r|]
    ensures t[|r|..] == s[k + |r|..]
  {
  }

  lemma TrimSpaceBefore(w: string)
    requires Tidy(w)
    ensures Trim(" " + w) == w
  {
    assert TrimStart(" " + w) == TrimStart((" " + w)[1..]);
    assert (" " + w)[1..] == w;
  }

  lemma TrimSpaceAfter(c: string)
    requires Tidy(c)
    ensures Trim(c + " ") == c
  {
    if c == "" {
      assert AllSpace(" ");
    } else {
      var s := c + " ";
      assert TrimStart(s) == s;
      assert s[..|s| - 1] == c;
    }
  }

  // ---------------------------------------------------------------------------
  // split(/\s+/)

  /** Length of the leading run of non-whitespace characters. */
  function WordRun(s: string): (k: nat)
    ensures k <= |s|
    ensures NoSpace(s[..k])
    ensures k == |s| || IsSpace(s[k])
  {
    if |s| > 0 && !IsSpace(s[0]) then
      var k := 1 + WordRun(s[1..]);
      assert forall i :: 1 <= i < k ==> s[..k][i] == s[1..][i - 1];
      k
    else 0
  }

  /** Length of the leading run of whitespace characters. */
  function SpaceRun(s: string): (k: nat)
    ensures k <= |s|
    ensures AllSpace(s[..k])
    ensures k == |s| || !IsSpace(s[k])
  {
    if |s| > 0 && IsSpace(s[0]) then
      var k := 1 + SpaceRun(s[1..]);
      assert forall i :: 1 <= i < k ==> s[..k][i] == s[1..][i - 1];
      k
    else 0
  }

  /** What `s.split(/\s+/)` promises about its pieces: at least one, none
      holding whitespace, only the first and the last possibly empty (exactly
      when `s` starts or ends with whitespace), and `s` itself when there is
      only one. */
  predicate SplitFacts(s: string, pieces: seq<string>) {
    && |pieces| >= 1
    && (forall i :: 0 <= i < |pieces| ==> NoSpace(pieces[i]))
    && (forall i :: 0 < i < |pieces| - 1 ==> pieces[i] != "")
    && (pieces[0] == "" <==> s == "" || IsSpace(s[0]))
    && (pieces[|pieces| - 1] == "" <==> s == "" || IsSpace(s[|s| - 1]))
    && (|pieces| == 1 ==> pieces[0] == s)
    && (s == "" ==> pieces == [""])
  }

  /** `s.split(/\s+/)`: the pieces between maximal whitespace runs.  A leading
      (trailing) run yields an empty first (last) piece, and `""` yields `[""]`. */
  function Split(s: string): (pieces: seq<string>)
    ensures SplitFacts(s, pieces)
    decreases |s|
  {
    var k := WordRun(s);
    if k == |s| then
      SplitWhole(s);
      [s]
    else
      var gap := SpaceRun(s[k..]);
      var tail := Split(s[k..][gap..]);
      SplitAssemble(s, k, gap, tail);
      [s[..k]] + tail
  }

  /** A string without whitespace is its own single piece. */
  lemma SplitWhole(s: string)
    requires NoSpace(s[..|s|])
    ensures SplitFacts(s, [s])
  {
    assert s[..|s|] == s;
  }

  /** The facts `Split` promises, for a first word followed by a whitespace
      run and the pieces of what follows it. */
  lemma SplitAssemble(s: string, k: nat, gap: nat, tail: seq<string>)
    requires k < |s| && NoSpace(s[..k]) && IsSpace(s[k])
    requires gap <= |s[k..]| && AllSpace(s[k..][..gap])
    requires gap == |s[k..]| || !IsSpace(s[k..][gap])
    requires SplitFacts(s[k..][gap..], tail)
    ensures SplitFacts(s, [s[..k]] + tail)
  {
    var rest := s[k..][gap..];
    var pieces := [s[..k]] + tail;
    assert s[k..][0] == s[k];
    if rest != "" {
      assert rest[|rest| - 1] == s[|s| - 1];
      assert rest[0] == s[k..][gap];
    } else {
      assert s[|s| - 1] == s[k..][..gap][|s| - 1 - k];
    }
    assert k > 0 ==> s[..k][0] == s[0];
    forall i | 0 <= i < |pieces|
      ensures NoSpace(pieces[i])
    {
      if i > 0 {
        assert pieces[i] == tail[i - 1];
      }
    }
    forall i | 0 < i < |pieces| - 1
      ensures pieces[i] != ""
    {
      assert pieces[i] == tail[i - 1];
    }
  }

  /** `ps[0] + gaps[0] + ps[1] + ... + gaps[n-1] + ps[n]`: pieces put back
      together with a separator between each two. */
  function Weave(ps: seq<string>, gaps: seq<string>): string
    requires |ps| == |gaps| + 1
    decreases |gaps|
  {
    if gaps == [] then ps[0] else ps[0] + gaps[0] + Weave(ps[1..], gaps[1..])
  }

  lemma WeaveCons(p: string, ps: seq<string>, g: string, gaps: seq<string>)
    requires |ps| == |gaps| + 1
    ensures Weave([p] + ps, [g] + gaps) == p + g + Weave(ps, gaps)
  {
    assert ([p] + ps)[1..] == ps;
    assert ([g] + gaps)[1..] == gaps;
  }

  /** The whitespace runs `split(/\s+/)` cuts `s` at, in order: non-empty,
      whitespace only, and putting them back between the pieces gives `s`
      again, so the pieces are exactly the text between maximal whitespace
      runs. */
  lemma SplitRebuilds(s: string)
    ensures exists gaps :: |gaps| == |Split(s)| - 1 && Separators(gaps) && Weave(Split(s), gaps) == s
  {
    var gaps := SplitGaps(s);
    assert |gaps| == |Split(s)| - 1 && Separators(gaps) && Weave(Split(s), gaps) == s;
  }

  /** The separators of `SplitRebuilds`, built alongside `Split`. */
  lemma {:induction false} SplitGaps(s: string) returns (gaps: seq<string>)
    ensures |gaps| == |Split(s)| - 1
    ensures Separators(gaps)
    ensures Weave(Split(s), gaps) == s
    decreases |s|
  {
    var k := WordRun(s);
    if k == |s| {
      assert Split(s) == [s];
      gaps := [];
    } else {
      var gap := SpaceRun(s[k..]);
      var rest := s[k..][gap..];
      var tail := SplitGaps(rest);
      assert Split(s) == [s[..k]] + Split(rest);
      GapsStep(s, k, gap, Split(rest), tail);
      gaps := [s[k..][..gap]] + tail;
    }
  }

  /** One whitespace run in front of the separators of the rest. */
  lemma GapsStep(s: string, k: nat, gap: nat, ps: seq<string>, tail: seq<string>)
    requires k < |s| && IsSpace(s[k])
    requires gap <= |s[k..]| && AllSpace(s[k..][..gap])
    requires gap == |s[k..]| || !IsSpace(s[k..][gap])
    requires |tail| == |ps| - 1 && Separators(tail) && Weave(ps, tail) == s[k..][gap..]
    ensures Separators([s[k..][..gap]] + tail)
    ensures Weave([s[..k]] + ps, [s[k..][..gap]] + tail) == s
  {
    var g := s[k..][..gap];
    assert s[k..][0] == s[k];
    ThreeSlices(s, k, gap);
    WeaveStep(s[..k], g, ps, tail, s);
    GapsCons(g, tail);
  }

  /** Cutting at k and then gap further on loses nothing. */
  lemma ThreeSlices(s: string, k: nat, gap: nat)
    requires k + gap <= |s|
    ensures s == s[..k] + s[k..][..gap] + s[k..][gap..]
  {
    assert s[k..] == s[k..][..gap] + s[k..][gap..];
    assert s == s[..k] + s[k..];
  }

  /** A piece and a gap in front of a woven rest. */
  lemma WeaveStep(p: string, g: string, ps: seq<string>, tail: seq<string>, s: string)
    requires |tail| == |ps| - 1 && s == p + g + Weave(ps, tail)
    ensures Weave([p] + ps, [g] + tail) == s
  {
    WeaveCons(p, ps, g, tail);
  }

  /** Every separator is a non-empty whitespace run. */
  predicate Separators(gaps: seq<string>) {
    forall i :: 0 <= i < |gaps| ==> gaps[i] != "" && AllSpace(gaps[i])
  }

  lemma GapsCons(g: string, tail: seq<string>)
    requires g != "" && AllSpace(g) && Separators(tail)
    ensures Separators([g] + tail)
  {
    forall i | 0 <= i < |[g] + tail|
      ensures ([g] + tail)[i] != "" && AllSpace(([g] + tail)[i])
    {
      if i > 0 {
        assert ([g] + tail)[i] == tail[i - 1];
      }
    }
  }

  /** The pieces of `ps` that are not empty, in order. */
  function DropEmpty(ps: seq<string>): (ws: seq<string>)
    ensures |ws| <= |ps|
    ensures forall i :: 0 <= i < |ws| ==> ws[i] != ""
    ensures (forall i :: 0 <= i < |ps| ==> NoSpace(ps[i])) ==> forall i :: 0 <= i < |ws| ==> NoSpace(ws[i])
  {
    if ps == [] then []
    else (if ps[0] == "" then [] else [ps[0]]) + DropEmpty(ps[1..])
  }

  lemma {:induction false} DropEmptyAppend(a: seq<string>, b: seq<string>)
    ensures DropEmpty(a + b) == DropEmpty(a) + DropEmpty(b)
  {
    if a != [] {
      var head: seq<string> := if a[0] == "" then [] else [a[0]];
      assert (a + b)[0] == a[0];
      assert (a + b)[1..] == a[1..] + b;
      assert DropEmpty(a + b) == head + DropEmpty(a[1..] + b);
      assert DropEmpty(a) == head + DropEmpty(a[1..]);
      DropEmptyAppend(a[1..], b);
      assert head + (DropEmpty(a[1..]) + DropEmpty(b)) == (head + DropEmpty(a[1..])) + DropEmpty(b);
    } else {
      assert a + b == b;
    }
  }

  lemma {:induction false} DropEmptyKeeps(ps: seq<string>)
    requires forall i :: 0 <= i < |ps| ==> ps[i] != ""
    ensures DropEmpty(ps) == ps
  {
    if ps != [] {
      DropEmptyKeeps(ps[1..]);
    }
  }

  /** The words of `s`: `s.split(/\s+/)` with its empty pieces dropped. */
  function Words(s: string): (ws: seq<string>)
    ensures forall i :: 0 <= i < |ws| ==> IsWord(ws[i])
  {
    DropEmpty(Split(s))
  }

  /** A string without words is whitespace only, so `Trim` empties it. */
  lemma {:induction false} NoWordsAllSpace(s: string)
    requires Words(s) == []
    ensures AllSpace(s)
    decreases |s|
  {
    var k := WordRun(s);
    if k == |s| {
      assert Split(s) == [s];
      DropEmptySingle(s);
    } else {
      var gap := SpaceRun(s[k..]);
      var rest := s[k..][gap..];
      assert Split(s) == [s[..k]] + Split(rest);
      DropEmptyAppend([s[..k]], Split(rest));
      assert DropEmpty([s[..k]]) == [] && Words(rest) == [];
      NoWordsAllSpace(rest);
      NoWordsStep(s, k, gap);
    }
  }

  /** No word before the first whitespace run, whitespace after it. */
  lemma NoWordsStep(s: string, k: nat, gap: nat)
    requires k + gap <= |s| && DropEmpty([s[..k]]) == []
    requires AllSpace(s[k..][..gap]) && AllSpace(s[k..][gap..])
    ensures AllSpace(s)
  {
    DropEmptySingle(s[..k]);
    assert |s[..k]| == 0;
    assert s == s[k..][..gap] + s[k..][gap..];
    AllSpaceAppend(s[k..][..gap], s[k..][gap..]);
  }

  lemma AllSpaceAppend(x: string, y: string)
    requires AllSpace(x) && AllSpace(y)
    ensures AllSpace(x + y)
  {
    forall i | 0 <= i < |x + y|
      ensures IsSpace((x + y)[i])
    {
      if i >= |x| {
        assert (x + y)[i] == y[i - |x|];
      }
    }
  }

  lemma DropEmptySingle(x: string)
    ensures DropEmpty([x]) == if x == "" then [] else [x]
    ensures (if x == "" then [""] else []) + DropEmpty([x]) == [x]
    ensures DropEmpty([x]) + (if x == "" then [""] else []) == [x]
  {
    assert DropEmpty([x]) == (if x == "" then [] else [x]) + DropEmpty([]);
  }

  /** Dropping the empty pieces of a sequence whose inner pieces are all
      non-empty removes at most its first and its last piece. */
  lemma DropEmptyFramed(p: seq<string>)
    requires |p| >= 2
    requires forall i :: 0 < i < |p| - 1 ==> p[i] != ""
    ensures (if p[0] == "" then [""] else []) + DropEmpty(p)
            + (if p[|p| - 1] == "" then [""] else []) == p
  {
    var first, mid, last := p[0], p[1..|p| - 1], p[|p| - 1];
    Frame(p);
    assert forall i :: 0 <= i < |mid| ==> mid[i] == p[i + 1];
    DropEmptyKeeps(mid);
    DropEmptyAppend([first] + mid, [last]);
    DropEmptyAppend([first], mid);
    DropEmptySingle(first);
    DropEmptySingle(last);
    var pre: seq<string> := if first == "" then [""] else [];
    var post: seq<string> := if last == "" then [""] else [];
    Regroup(pre, DropEmpty([first]), mid, DropEmpty([last]), post);
  }

  lemma Frame<T>(p: seq<T>)
    requires |p| >= 2
    ensures p == [p[0]] + p[1..|p| - 1] + [p[|p| - 1]]
  {
  }

  lemma Regroup<T>(a: seq<T>, b: seq<T>, c: seq<T>, d: seq<T>, e: seq<T>)
    ensures a + (b + c + d) + e == (a + b) + c + (d + e)
  {
  }

  /** The only pieces `split(/\s+/)` adds to the words of a non-empty string are
      one empty piece for leading and one for trailing whitespace. */
  lemma SplitFraming(s: string)
    requires s != ""
    ensures Split(s) == (if IsSpace(s[0]) then [""] else []) + Words(s)
                        + (if IsSpace(s[|s| - 1]) then [""] else [])
  {
    var p := Split(s);
    if |p| == 1 {
      DropEmptySingle(s);
    } else {
      DropEmptyFramed(p);
    }
  }

  // ---------------------------------------------------------------------------
  // the words put back into the text

  /** A woven string starts with its first piece and ends with its last. */
  lemma {:induction false} WeaveEdges(ps: seq<string>, gaps: seq<string>)
    requires |ps| == |gaps| + 1
    ensures var w := Weave(ps, gaps);
            |ps[0]| <= |w| && w[..|ps[0]|] == ps[0]
            && |ps[|ps| - 1]| <= |w| && w[|w| - |ps[|ps| - 1]|..] == ps[|ps| - 1]
    decreases |gaps|
  {
    if gaps != [] {
      WeaveEdges(ps[1..], gaps[1..]);
      var rest := Weave(ps[1..], gaps[1..]);
      var w := ps[0] + gaps[0] + rest;
      assert ps[1..][|ps[1..]| - 1] == ps[|ps| - 1];
      assert w[|w| - |ps[|ps| - 1]|..] == rest[|rest| - |ps[|ps| - 1]|..];
    }
  }

  /** Dropping an empty last piece leaves its separator at the end. */
  lemma {:induction false} WeaveDropBack(ps: seq<string>, gaps: seq<string>)
    requires |ps| == |gaps| + 1 && |ps| >= 2 && ps[|ps| - 1] == ""
    ensures Weave(ps, gaps) == Weave(ps[..|ps| - 1], gaps[..|gaps| - 1]) + gaps[|gaps| - 1]
    decreases |gaps|
  {
    if |gaps| == 1 {
      assert ps[1..] == [""];
      assert ps[..|ps| - 1] == [ps[0]];
    } else {
      WeaveDropBack(ps[1..], gaps[1..]);
      assert ps[1..][..|ps[1..]| - 1] == ps[..|ps| - 1][1..];
      assert gaps[1..][..|gaps[1..]| - 1] == gaps[..|gaps| - 1][1..];
      assert gaps[1..][|gaps[1..]| - 1] == gaps[|gaps| - 1];
      assert ps[..|ps| - 1][0] == ps[0] && gaps[..|gaps| - 1][0] == gaps[0];
    }
  }

  /** Trimming whitespace off both ends of a tidy, non-empty middle. */
  lemma TrimFramed(s: string, a: string, x: string, b: string)
    requires s == a + x + b
    requires AllSpace(a) && AllSpace(b) && x != "" && Tidy(x)
    ensures x == Trim(s)
  {
    assert s == a + (x + b);
    assert (x + b)[0] == x[0];
    TrimStartPast(a, x + b);
    TrimEndPast(x, b);
  }

  /** Leading whitespace before a string that does not start with whitespace
      is exactly what `TrimStart` removes. */
  lemma {:induction false} TrimStartPast(a: string, y: string)
    requires AllSpace(a) && (y == "" || !IsSpace(y[0]))
    ensures TrimStart(a + y) == y
    decreases |a|
  {
    if a == "" {
      assert a + y == y;
    } else {
      var s := a + y;
      assert s[0] == a[0];
      assert s[1..] == a[1..] + y;
      assert AllSpace(a[1..]) by {
        forall i | 0 <= i < |a[1..]|
          ensures IsSpace(a[1..][i])
        {
          assert a[1..][i] == a[i + 1];
        }
      }
      TrimStartPast(a[1..], y);
    }
  }

  /** Trailing whitespace after a string that does not end with whitespace is
      exactly what `TrimEnd` removes. */
  lemma {:induction false} TrimEndPast(y: string, b: string)
    requires AllSpace(b) && (y == "" || !IsSpace(y[|y| - 1]))
    ensures TrimEnd(y + b) == y
    decreases |b|
  {
    if b == "" {
      assert y + b == y;
    } else {
      var s := y + b;
      var b' := b[..|b| - 1];
      assert s[|s| - 1] == b[|b| - 1];
      assert s[..|s| - 1] == y + b';
      assert AllSpace(b') by {
        forall i | 0 <= i < |b'|
          ensures IsSpace(b'[i])
        {
          assert b'[i] == b[i];
        }
      }
      TrimEndPast(y, b');
    }
  }

  /** Weaving pieces framed by optional empty first and last pieces: the
      frame's separators end up outside the woven middle. */
  lemma WeaveFramed(pre: seq<string>, ws: seq<string>, post: seq<string>, g: seq<string>)
    requires pre == [] || pre == [""]
    requires post == [] || post == [""]
    requires ws != [] && |pre + ws + post| == |g| + 1
    ensures |pre| + |post| <= |g| && |g[|pre|..|g| - |post|]| == |ws| - 1
    ensures Weave(pre + ws + post, g)
         == (if pre != [] then g[0] else "") + Weave(ws, g[|pre|..|g| - |post|])
            + (if post != [] then g[|g| - 1] else "")
  {
    assert pre + ws + post == pre + (ws + post);
    WeaveFront(pre, ws + post, g);
    var g1 := g[|pre|..];
    WeaveBack(ws, post, g1);
    assert g1[..|g1| - |post|] == g[|pre|..|g| - |post|];
    assert post != [] ==> g1[|g1| - 1] == g[|g| - 1];
  }

  lemma WeaveFront(pre: seq<string>, rest: seq<string>, g: seq<string>)
    requires pre == [] || pre == [""]
    requires rest != [] && |pre + rest| == |g| + 1
    ensures |pre| <= |g|
    ensures Weave(pre + rest, g) == (if pre != [] then g[0] else "") + Weave(rest, g[|pre|..])
  {
    var p := pre + rest;
    if pre != [] {
      assert p[0] == "" && p[1..] == rest;
    } else {
      assert p == rest && g[0..] == g;
    }
  }

  lemma WeaveBack(ws: seq<string>, post: seq<string>, g: seq<string>)
    requires post == [] || post == [""]
    requires ws != [] && |ws + post| == |g| + 1
    ensures |post| <= |g|
    ensures Weave(ws + post, g) == Weave(ws, g[..|g| - |post|]) + (if post != [] then g[|g| - 1] else "")
  {
    if post != [] {
      var p := ws + post;
      WeaveDropBack(p, g);
      assert p[..|p| - 1] == ws;
    } else {
      assert ws + post == ws;
      assert g[..|g|] == g;
    }
  }

  /** The frame's separators and the inner ones, for any pieces and
      separators woven into `s`. */
  lemma FrameParts(s: string, p: seq<string>, ws: seq<string>, g: seq<string>,
                   pre: seq<string>, post: seq<string>)
      returns (a: string, inner: seq<string>, b: string)
    requires pre == [] || pre == [""]
    requires post == [] || post == [""]
    requires ws != [] && p == pre + ws + post && |p| == |g| + 1
    requires Separators(g) && Weave(p, g) == s
    ensures |inner| == |ws| - 1 && Separators(inner)
    ensures AllSpace(a) && AllSpace(b)
    ensures s == a + Weave(ws, inner) + b
  {
    a := if pre != [] then g[0] else "";
    b := if post != [] then g[|g| - 1] else "";
    WeaveFramed(pre, ws, post, g);
    inner := g[|pre|..|g| - |post|];
    FrameEquation(s, p, ws, g, pre, post, inner, a, b);
    InnerGapsSpace(g, |pre|, |post|);
    FrameSpace(g, pre, post);
  }

  /** Words woven with separators and framed by whitespace trim to the weave. */
  lemma TrimWoven(s: string, a: string, ws: seq<string>, inner: seq<string>, b: string)
    requires |ws| == |inner| + 1
    requires forall i :: 0 <= i < |ws| ==> IsWord(ws[i])
    requires AllSpace(a) && AllSpace(b) && s == a + Weave(ws, inner) + b
    ensures Weave(ws, inner) == Trim(s)
  {
    WovenTidy(ws, inner);
    TrimFramed(s, a, Weave(ws, inner), b);
  }

  /** The text is the middle weave between the frame's separators. */
  lemma FrameEquation(s: string, p: seq<string>, ws: seq<string>, g: seq<string>,
                      pre: seq<string>, post: seq<string>, inner: seq<string>, a: string, b: string)
    requires pre == [] || pre == [""]
    requires post == [] || post == [""]
    requires ws != [] && p == pre + ws + post && |p| == |g| + 1 && Weave(p, g) == s
    requires |pre| + |post| <= |g| && inner == g[|pre|..|g| - |post|]
    requires a == (if pre != [] then g[0] else "") && b == (if post != [] then g[|g| - 1] else "")
    ensures |inner| == |ws| - 1
    ensures s == a + Weave(ws, inner) + b
  {
    WeaveFramed(pre, ws, post, g);
  }

  /** The separators a frame piece contributes are whitespace. */
  lemma FrameSpace(g: seq<string>, pre: seq<string>, post: seq<string>)
    requires |pre| + |post| <= |g| && Separators(g)
    ensures AllSpace(if pre != [] then g[0] else "")
    ensures AllSpace(if post != [] then g[|g| - 1] else "")
  {
    if pre != [] {
      assert g[0] != "" && AllSpace(g[0]);
    }
    if post != [] {
      assert g[|g| - 1] != "" && AllSpace(g[|g| - 1]);
    }
  }

  /** The words with the inner whitespace runs put back between them are the
      trimmed text: the words are its maximal non-whitespace runs, in order. */
  lemma WordsRebuild(s: string)
    requires Words(s) != []
    ensures exists gaps :: |gaps| == |Words(s)| - 1 && Separators(gaps) && Weave(Words(s), gaps) == Trim(s)
  {
    var pre, post := WordsFrame(s);
    var ws := Words(s);
    var g := SplitGaps(s);
    var a, inner, b := FrameParts(s, Split(s), ws, g, pre, post);
    TrimWoven(s, a, ws, inner, b);
    assert |inner| == |ws| - 1 && Separators(inner) && Weave(ws, inner) == Trim(s);
  }

  /** The pieces of a text with words are its words, framed by an empty
      piece for each whitespace end. */
  lemma WordsFrame(s: string) returns (pre: seq<string>, post: seq<string>)
    requires Words(s) != []
    ensures pre == [] || pre == [""]
    ensures post == [] || post == [""]
    ensures Split(s) == pre + Words(s) + post
  {
    NoWordsInEmpty();
    assert s != "";
    SplitFraming(s);
    pre := if IsSpace(s[0]) then [""] else [];
    post := if IsSpace(s[|s| - 1]) then [""] else [];
  }

  /** The empty string has no words. */
  lemma NoWordsInEmpty()
    ensures Words("") == []
  {
    assert Split("") == [""];
    DropEmptySingle("");
  }

  lemma InnerGapsSpace(g: seq<string>, front: nat, back: nat)
    requires front + back <= |g| && Separators(g)
    ensures Separators(g[front..|g| - back])
  {
    var inner := g[front..|g| - back];
    forall i | 0 <= i < |inner|
      ensures inner[i] != "" && AllSpace(inner[i])
    {
      assert inner[i] == g[front + i];
    }
  }

  /** Words woven with any separators start and end with a word. */
  lemma WovenTidy(ws: seq<string>, gaps: seq<string>)
    requires |ws| == |gaps| + 1
    requires forall i :: 0 <= i < |ws| ==> IsWord(ws[i])
    ensures Weave(ws, gaps) != "" && Tidy(Weave(ws, gaps))
  {
    var x := Weave(ws, gaps);
    WeaveEdges(ws, gaps);
    assert IsWord(ws[0]) && IsWord(ws[|ws| - 1]);
    assert x[0] == x[..|ws[0]|][0] == ws[0][0];
    var last := ws[|ws| - 1];
    assert x[|x| - 1] == x[|x| - |last|..][|last| - 1] == last[|last| - 1];
  }

  // ---------------------------------------------------------------------------
  // joining with single spaces

  /** `ws.join(" ")`. */
  function JoinSp(ws: seq<string>): (s: string)
    ensures ws == [] ==> s == ""
    ensures ws != [] ==> |ws[0]| <= |s| && s[..|ws[0]|] == ws[0]
    ensures ws != [] ==> |ws[|ws| - 1]| <= |s| && s[|s| - |ws[|ws| - 1]|..] == ws[|ws| - 1]
  {
    if |ws| == 0 then ""
    else if |ws| == 1 then ws[0]
    else
      var rest := JoinSp(ws[1..]);
      assert ws[1..][|ws[1..]| - 1] == ws[|ws| - 1];
      assert (ws[0] + " " + rest)[|ws[0] + " " + rest| - |ws[|ws| - 1]|..]
          == rest[|rest| - |ws[|ws| - 1]|..];
      ws[0] + " " + rest
  }

  /** Words joined with single spaces neither start nor end with whitespace. */
  lemma JoinTidy(ws: seq<string>)
    requires forall i :: 0 <= i < |ws| ==> IsWord(ws[i])
    ensures Tidy(JoinSp(ws))
    ensures ws != [] ==> JoinSp(ws) != ""
  {
    if ws != [] {
      assert IsWord(ws[0]) && IsWord(ws[|ws| - 1]);
      JoinEdges(ws);
    }
  }

  /** A join starts with its first word's first character and ends with its
      last word's last character. */
  lemma JoinEdges(ws: seq<string>)
    requires ws != [] && ws[0] != "" && ws[|ws| - 1] != ""
    ensures var s := JoinSp(ws); s != "" && s[0] == ws[0][0] && s[|s| - 1] == ws[|ws| - 1][|ws[|ws| - 1]| - 1]
  {
    var s := JoinSp(ws);
    var first, last := ws[0], ws[|ws| - 1];
    assert s[0] == s[..|first|][0];
    assert s[|s| - 1] == s[|s| - |last|..][|last| - 1];
  }

  lemma {:induction false} JoinAppend(a: seq<string>, b: seq<string>)
    requires a != [] && b != []
    ensures JoinSp(a + b) == JoinSp(a) + " " + JoinSp(b)
  {
    if |a| == 1 {
      assert (a + b)[1..] == b;
    } else {
      var x, y, z := a[0], JoinSp(a[1..]), JoinSp(b);
      assert (a + b)[1..] == a[1..] + b;
      assert JoinSp(a[1..] + b) == y + " " + z by { JoinAppend(a[1..], b); }
      assert JoinSp(a + b) == x + " " + (y + " " + z);
      Reassociate(x, " ", y, " ", z);
    }
  }

  lemma Reassociate<T>(a: seq<T>, b: seq<T>, c: seq<T>, d: seq<T>, e: seq<T>)
    ensures a + b + (c + d + e) == (a + b + c) + d + e
  {
  }

  lemma WordRunBeforeSpace(w: string, j: string)
    requires IsWord(w)
    ensures WordRun(w + " " + j) == |w|
  {
    var s := w + " " + j;
    assert forall i :: 0 <= i < |w| ==> s[i] == w[i];
    assert s[|w|] == ' ';
  }

  lemma SpaceRunSingle(j: string)
    requires j != "" && !IsSpace(j[0])
    ensures SpaceRun(" " + j) == 1
  {
    assert (" " + j)[1] == j[0];
  }

  /** A word followed by one space splits off as the first piece. */
  lemma SplitCons(w: string, j: string)
    requires IsWord(w) && j != "" && !IsSpace(j[0])
    ensures Split(w + " " + j) == [w] + Split(j)
  {
    var s := w + " " + j;
    WordRunBeforeSpace(w, j);
    SpaceRunSingle(j);
    assert s[..|w|] == w;
    assert s[|w|..] == " " + j;
    assert (" " + j)[1..] == j;
  }

  /** Re-splitting words joined with single spaces gives the words back. */
  lemma {:induction false} SplitJoin(ws: seq<string>)
    requires ws != []
    requires forall i :: 0 <= i < |ws| ==> IsWord(ws[i])
    ensures Split(JoinSp(ws)) == ws
  {
    if |ws| == 1 {
      SplitWord(ws[0]);
      assert JoinSp(ws) == ws[0];
    } else {
      TailWords(ws);
      SplitJoin(ws[1..]);
      SplitJoinStep(ws);
    }
  }

  /** If the tail's join splits back into the tail, the whole join splits back
      into the whole sequence. */
  lemma SplitJoinStep(ws: seq<string>)
    requires |ws| >= 2
    requires forall i :: 0 <= i < |ws| ==> IsWord(ws[i])
    requires forall i :: 0 <= i < |ws[1..]| ==> IsWord(ws[1..][i])
    requires Split(JoinSp(ws[1..])) == ws[1..]
    ensures Split(JoinSp(ws)) == ws
  {
    var w, rest := ws[0], ws[1..];
    var j := JoinSp(rest);
    assert Split(w + " " + j) == [w] + Split(j) by { JoinStep(w, rest); }
    assert JoinSp(ws) == w + " " + j;
    assert [w] + rest == ws by { Uncons(ws); }
  }

  lemma Uncons<T>(xs: seq<T>)
    requires xs != []
    ensures [xs[0]] + xs[1..] == xs
  {
  }

  lemma TailWords(ws: seq<string>)
    requires ws != [] && forall i :: 0 <= i < |ws| ==> IsWord(ws[i])
    ensures forall i :: 0 <= i < |ws[1..]| ==> IsWord(ws[1..][i])
  {
    forall i | 0 <= i < |ws[1..]|
      ensures IsWord(ws[1..][i])
    {
      assert ws[1..][i] == ws[i + 1];
    }
  }

  lemma SplitWord(w: string)
    requires IsWord(w)
    ensures Split(w) == [w]
  {
    assert WordRun(w) == |w|;
  }

  lemma JoinStep(w: string, rest: seq<string>)
    requires IsWord(w) && rest != []
    requires forall i :: 0 <= i < |rest| ==> IsWord(rest[i])
    ensures Split(w + " " + JoinSp(rest)) == [w] + Split(JoinSp(rest))
  {
    JoinTidy(rest);
    SplitCons(w, JoinSp(rest));
  }

  /** No word is lost, split or merged by joining with single spaces and splitting again. */
  lemma WordsJoin(ws: seq<string>)
    requires forall i :: 0 <= i < |ws| ==> IsWord(ws[i])
    ensures Words(JoinSp(ws)) == ws
  {
    if ws != [] {
      SplitJoin(ws);
      DropEmptyKeeps(ws);
    }
  }

  // ---------------------------------------------------------------------------
  // searching and case

  predicate OccursAt(s: string, sub: string, i: int) {
    0 <= i && i + |sub| <= |s| && s[i..i + |sub|] == sub
  }

  /** `s.indexOf(sub, from)`, for `from` within `s`. */
  function IndexFrom(s: string, sub: string, from: nat): (r: int)
    requires from <= |s|
    ensures r == -1 || (from <= r && OccursAt(s, sub, r))
    ensures forall i :: from <= i && (r == -1 || i < r) ==> !OccursAt(s, sub, i)
    decreases |s| - from
  {
    if OccursAt(s, sub, from) then from
    else if from + |sub| >= |s| then
      -1
    else IndexFrom(s, sub, from + 1)
  }

  /** `s.indexOf(sub)`: the first position of `sub` in `s`, or -1. */
  function IndexOf(s: string, sub: string): (r: int)
    ensures r == -1 || OccursAt(s, sub, r)
    ensures forall i :: 0 <= i && (r == -1 || i < r) ==> !OccursAt(s, sub, i)
  {
    IndexFrom(s, sub, 0)
  }

  /** Lower-casing of the ASCII letters; every other character is left alone. */
  function LowerChar(c: char): char {
    if 'A' <= c <= 'Z' then (c as int + 32) as char else c
  }

  /** `toLowerCase`, restricted to ASCII letters. */
  function Lower(s: string): (r: string)
    ensures |r| == |s|
    ensures forall i :: 0 <= i < |s| ==> r[i] == LowerChar(s[i])
    ensures forall i :: 0 <= i < |r| ==> !('A' <= r[i] <= 'Z')
    ensures forall i :: 0 <= i < |s| && !('A' <= s[i] <= 'Z') ==> r[i] == s[i]
    ensures forall i :: 0 <= i < |s| && 'A' <= s[i] <= 'Z' ==> 'a' <= r[i] <= 'z' && r[i] as int == s[i] as int + 32
  {
    seq(|s|, i requires 0 <= i < |s| => LowerChar(s[i]))
  }

  /** Lower-casing twice is lower-casing once. */
  lemma LowerIdempotent(s: string)
    ensures Lower(Lower(s)) == Lower(s)
  {
    var r := Lower(s);
    assert forall i :: 0 <= i < |r| ==> Lower(r)[i] == r[i];
  }

  predicate EndsWith(s: string, suffix: string) {
    |suffix| <= |s| && s[|s| - |suffix|..] == suffix
  }

  /** `/\.pdf$/i.test(s)`: `s` ends in ".pdf" in any mix of letter case. */
  predicate EndsWithPdf(s: string) {
    |s| >= 4 && Lower(s[|s| - 4..]) == ".pdf"
  }
}

=== FILE: wrap.dfy ===
/**
 * `wrapText(text, maxCharsPerLine)`, which both front-ends define identically
 * (public/app.js and app.js): whitespace-separated words are packed greedily
 * into lines, a word joining the current line only while the trimmed line
 * stays within the budget.
 */
module Wrap {
  import opened Text

  /** The loop state of wrapText: the lines pushed so far and the line being filled. */
  datatype Wrapping = Wrapping(lines: seq<string>, current: string)

  /** One `forEach` step: try the word on the current line, else push the line
      (only if it is not empty) and start a new one with the word. */
  function Place(w: Wrapping, word: string, max: int): Wrapping {
    var candidate := Trim(w.current + " " + word);
    if |candidate| > max then
      Wrapping(if w.current != "" then w.lines + [w.current] else w.lines, word)
    else
      Wrapping(w.lines, candidate)
  }

  predicate NoEmptyLines(lines: seq<string>) {
    forall i :: 0 <= i < |lines| ==> lines[i] != ""
  }

  /** The `forEach` over the words, left to right. */
  function PlaceAll(w: Wrapping, words: seq<string>, max: int): (r: Wrapping)
    ensures NoEmptyLines(w.lines) ==> NoEmptyLines(r.lines)
    decreases |words|
  {
    if words == [] then w
    else
      PlaceNoEmpty(w, words[0], max);
      PlaceAll(Place(w, words[0], max), words[1..], max)
  }

  /** Only a non-empty current line is ever pushed. */
  lemma PlaceNoEmpty(w: Wrapping, word: string, max: int)
    ensures NoEmptyLines(w.lines) ==> NoEmptyLines(Place(w, word, max).lines)
  {
    if NoEmptyLines(w.lines) {
      var lines := if w.current != "" then w.lines + [w.current] else w.lines;
      forall i | 0 <= i < |lines|
        ensures lines[i] != ""
      {
        if i < |w.lines| {
          assert lines[i] == w.lines[i];
        }
      }
      assert Place(w, word, max).lines == lines || Place(w, word, max).lines == w.lines;
    }
  }

  /** The closing `if (current) lines.push(current)`. */
  function Flush(w: Wrapping): seq<string> {
    if w.current != "" then w.lines + [w.current] else w.lines
  }

  const Start := Wrapping([], "")

  /** wrapText: an empty text has no lines; otherwise the words of
      `text.split(/\s+/)` are placed one by one. */
  function WrapText(text: string, max: int): (lines: seq<string>)
    ensures text == "" ==> lines == []
    ensures NoEmptyLines(lines)
  {
    if text == "" then [] else Flush(PlaceAll(Start, Split(text), max))
  }

  // ---------------------------------------------------------------------------
  // What a line is

  /** The text up to the first whitespace character. */
  function FirstWord(s: string): string {
    s[..WordRun(s)]
  }

  /** A line is either within the budget or a single word. */
  predicate Fits(line: string, max: int) {
    |line| <= max || IsWord(line)
  }

  /** Greedy maximality between two consecutive lines: the first word of the
      second did not fit on the first. */
  predicate Overflows(line: string, next: string, max: int) {
    |line + " " + FirstWord(next)| > max
  }

  predicate IsLine(s: string) {
    s != "" && Tidy(s)
  }

  predicate AllFit(lines: seq<string>, max: int) {
    forall i :: 0 <= i < |lines| ==> IsLine(lines[i]) && Fits(lines[i], max)
  }

  predicate Chained(lines: seq<string>, max: int) {
    forall i :: 0 <= i < |lines| - 1 ==> Overflows(lines[i], lines[i + 1], max)
  }

  /** The invariant the wrap loop keeps when it is fed words only: what it would
      output now is well formed and greedy, and the current line is empty only
      before the first word. */
  predicate Good(w: Wrapping, max: int) {
    && AllFit(Flush(w), max)
    && Chained(Flush(w), max)
    && (w.current == "" ==> w.lines == [])
  }

  // ---------------------------------------------------------------------------
  // Single steps

  lemma FirstWordExtend(line: string, word: string)
    ensures FirstWord(line + " " + word) == FirstWord(line)
  {
    var s := line + " " + word;
    var k := WordRun(line);
    assert forall i :: 0 <= i < |line| ==> s[i] == line[i];
    assert s[|line|] == ' ';
    assert s[..k] == line[..k];
  }

  lemma FirstWordOfWord(word: string)
    requires IsWord(word)
    ensures FirstWord(word) == word
  {
    assert word[..|word|] == word;
  }

  /** The trimmed candidate line is the current line and the word, one space apart. */
  lemma Candidate(current: string, word: string)
    requires current == "" || IsLine(current)
    requires IsWord(word)
    ensures Trim(current + " " + word) == if current == "" then word else current + " " + word
  {
    if current == "" {
      assert !IsSpace(word[0]) && !IsSpace(word[|word| - 1]);
      TrimSpaceBefore(word);
      assert current + " " + word == " " + word;
    } else {
      CandidateExtend(current, word);
    }
  }

  lemma CandidateExtend(current: string, word: string)
    requires IsLine(current) && IsWord(word)
    ensures Trim(current + " " + word) == current + " " + word
  {
    var c := current + " " + word;
    assert c[0] == current[0];
    assert c[|c| - 1] == word[|word| - 1];
    TidyIsTrimmed(c);
  }

  lemma TidyIsTrimmed(s: string)
    requires Tidy(s)
    ensures Trim(s) == s
  {
  }

  lemma JoinMerge(xs: seq<string>, a: string, b: string)
    ensures JoinSp(xs + [a, b]) == JoinSp(xs + [a + " " + b])
  {
    if xs != [] {
      JoinAppend(xs, [a, b]);
      JoinAppend(xs, [a + " " + b]);
      assert [a, b][1..] == [b];
    }
  }

  lemma ChainedSnoc(xs: seq<string>, y: string, max: int)
    requires Chained(xs, max)
    requires xs != [] ==> Overflows(xs[|xs| - 1], y, max)
    ensures Chained(xs + [y], max)
  {
    var ys := xs + [y];
    forall i | 0 <= i < |ys| - 1
      ensures Overflows(ys[i], ys[i + 1], max)
    {
      if i < |xs| - 1 {
        assert ys[i] == xs[i] && ys[i + 1] == xs[i + 1];
      }
    }
  }

  lemma AllFitSnoc(xs: seq<string>, y: string, max: int)
    requires AllFit(xs, max) && IsLine(y) && Fits(y, max)
    ensures AllFit(xs + [y], max)
  {
  }

  /** The word does not fit: the current line is pushed and the word starts the next. */
  lemma PlacePush(w: Wrapping, word: string, max: int)
    requires Good(w, max) && IsWord(word) && w.current != ""
    requires |w.current + " " + word| > max
    ensures Place(w, word, max) == Wrapping(w.lines + [w.current], word)
    ensures Flush(Place(w, word, max)) == Flush(w) + [word]
    ensures Good(Place(w, word, max), max)
  {
    GoodCurrent(w, max);
    Candidate(w.current, word);
    FirstWordOfWord(word);
    assert Flush(w) == w.lines + [w.current];
    ChainedSnoc(Flush(w), word, max);
    AllFitSnoc(Flush(w), word, max);
  }

  /** What holds of a sequence of lines holds of the lines before its last one. */
  lemma DropLast(xs: seq<string>, y: string, max: int)
    requires AllFit(xs + [y], max) && Chained(xs + [y], max)
    ensures AllFit(xs, max) && Chained(xs, max) && IsLine(y)
    ensures xs != [] ==> Overflows(xs[|xs| - 1], y, max)
  {
    var ys := xs + [y];
    assert forall i :: 0 <= i < |xs| ==> ys[i] == xs[i];
    assert ys[|xs|] == y;
  }

  /** The word fits: it is appended to the non-empty current line. */
  lemma PlaceExtend(w: Wrapping, word: string, max: int)
    requires Good(w, max) && IsWord(word) && w.current != ""
    requires |w.current + " " + word| <= max
    ensures Place(w, word, max) == Wrapping(w.lines, w.current + " " + word)
    ensures Good(Place(w, word, max), max)
  {
    GoodCurrent(w, max);
    Candidate(w.current, word);
    var line := w.current + " " + word;
    assert Flush(w) == w.lines + [w.current];
    DropLast(w.lines, w.current, max);
    FirstWordExtend(w.current, word);
    assert line[0] == w.current[0];
    assert line[|line| - 1] == word[|word| - 1];
    ChainedSnoc(w.lines, line, max);
    AllFitSnoc(w.lines, line, max);
  }

  lemma ExtendJoin(w: Wrapping, word: string)
    requires w.current != ""
    ensures JoinSp(Flush(Wrapping(w.lines, w.current + " " + word))) == JoinSp(Flush(w) + [word])
  {
    var line := w.current + " " + word;
    assert |line| == |w.current| + 1 + |word|;
    assert Flush(Wrapping(w.lines, line)) == w.lines + [line];
    assert Flush(w) == w.lines + [w.current];
    assert (w.lines + [w.current]) + [word] == w.lines + [w.current, word];
    JoinMerge(w.lines, w.current, word);
  }

  /** The line being filled is empty or a proper line. */
  lemma GoodCurrent(w: Wrapping, max: int)
    requires Good(w, max)
    ensures w.current == "" || IsLine(w.current)
  {
    if w.current != "" {
      assert Flush(w) == w.lines + [w.current];
      DropLast(w.lines, w.current, max);
    }
  }

  /** The first word always starts the first line. */
  lemma PlaceFirst(w: Wrapping, word: string, max: int)
    requires Good(w, max) && IsWord(word) && w.current == ""
    ensures Place(w, word, max) == Wrapping([], word)
    ensures Good(Place(w, word, max), max)
    ensures Flush(Place(w, word, max)) == Flush(w) + [word]
  {
    assert w.lines == [];
    assert Trim(w.current + " " + word) == word by { Candidate(w.current, word); }
    assert Place(w, word, max) == Wrapping([], word);
    assert Flush(w) == [];
    GoodSingle(word, max);
  }

  /** A single word on its own is a well-formed output. */
  lemma GoodSingle(word: string, max: int)
    requires IsWord(word)
    ensures Good(Wrapping([], word), max)
    ensures Flush(Wrapping([], word)) == [word]
  {
    assert Flush(Wrapping([], word)) == [word];
  }

  /** Placing a word keeps the invariant and adds exactly that word to the text. */
  lemma PlaceWord(w: Wrapping, word: string, max: int)
    requires Good(w, max) && IsWord(word)
    ensures Good(Place(w, word, max), max)
    ensures Flush(Place(w, word, max)) != []
    ensures JoinSp(Flush(Place(w, word, max))) == JoinSp(Flush(w) + [word])
  {
    if w.current == "" {
      PlaceFirst(w, word, max);
    } else if |w.current + " " + word| > max {
      PlacePush(w, word, max);
    } else {
      PlaceExtend(w, word, max);
      ExtendJoin(w, word);
    }
  }

  lemma JoinSameThen(x: seq<string>, y: seq<string>, rest: seq<string>)
    requires x != [] && y != [] && JoinSp(x) == JoinSp(y)
    ensures JoinSp(x + rest) == JoinSp(y + rest)
  {
    if rest != [] {
      JoinAppend(x, rest);
      JoinAppend(y, rest);
    } else {
      assert x + rest == x && y + rest == y;
    }
  }

  lemma Pivot<T>(xs: seq<T>, j: nat)
    requires j < |xs|
    ensures xs == xs[..j] + ([xs[j]] + xs[j + 1..])
  {
  }

  lemma ConsSplit<T>(xs: seq<T>, ys: seq<T>)
    requires ys != []
    ensures xs + [ys[0]] + ys[1..] == xs + ys
  {
  }

  /** Placing words one by one keeps the invariant and adds exactly those words. */
  lemma {:induction false} PlaceWords(w: Wrapping, words: seq<string>, max: int)
    requires Good(w, max)
    requires forall i :: 0 <= i < |words| ==> IsWord(words[i])
    ensures Good(PlaceAll(w, words, max), max)
    ensures JoinSp(Flush(PlaceAll(w, words, max))) == JoinSp(Flush(w) + words)
    decreases |words|
  {
    if words != [] {
      var next := Place(w, words[0], max);
      PlaceWord(w, words[0], max);
      PlaceWords(next, words[1..], max);
      JoinSameThen(Flush(next), Flush(w) + [words[0]], words[1..]);
      ConsSplit(Flush(w), words);
    } else {
      assert Flush(w) + words == Flush(w);
    }
  }

  lemma {:induction false} PlaceAllAppend(w: Wrapping, a: seq<string>, b: seq<string>, max: int)
    ensures PlaceAll(w, a + b, max) == PlaceAll(PlaceAll(w, a, max), b, max)
    decreases |a|
  {
    if a != [] {
      assert (a + b)[1..] == a[1..] + b;
      PlaceAllAppend(Place(w, a[0], max), a[1..], b, max);
    } else {
      assert a + b == b;
    }
  }

  /** The empty piece `split` yields for leading whitespace changes nothing. */
  lemma LeadingPiece(max: int)
    ensures PlaceAll(Start, [""], max) == Start
  {
    assert AllSpace(" ");
  }

  /** The empty piece `split` yields for trailing whitespace changes no output. */
  lemma TrailingPiece(w: Wrapping, max: int)
    requires Good(w, max)
    ensures Flush(PlaceAll(w, [""], max)) == Flush(w)
  {
    GoodCurrent(w, max);
    assert Trim(w.current + " " + "") == w.current by {
      TrimSpaceAfter(w.current);
      assert w.current + " " + "" == w.current + " ";
    }
    var next := if |w.current| > max then Wrapping(Flush(w), "") else w;
    assert Place(w, "", max) == next;
    assert PlaceAll(w, [""], max) == PlaceAll(next, [], max);
  }

  /** wrapText is the greedy loop run over the words of the text alone. */
  lemma WrapOverWords(text: string, max: int)
    ensures WrapText(text, max) == Flush(PlaceAll(Start, Words(text), max))
    ensures Good(PlaceAll(Start, Words(text), max), max)
  {
    PlaceWords(Start, Words(text), max);
    if text != "" {
      SplitFraming(text);
      var pre: seq<string> := if IsSpace(text[0]) then [""] else [];
      var post: seq<string> := if IsSpace(text[|text| - 1]) then [""] else [];
      PlaceAllAppend(Start, pre + Words(text), post, max);
      PlaceAllAppend(Start, pre, Words(text), max);
      if pre != [] {
        LeadingPiece(max);
      }
      if post != [] {
        TrailingPiece(PlaceAll(Start, Words(text), max), max);
      }
    }
  }

  // ---------------------------------------------------------------------------
  // Properties of wrapText

  /** Every line is within the budget, unless it is one word longer than the
      budget; and no line is empty or carries surrounding whitespace. */
  lemma LinesFit(text: string, max: int)
    ensures forall i :: 0 <= i < |WrapText(text, max)| ==>
              var line := WrapText(text, max)[i];
              IsLine(line) && (|line| <= max || (IsWord(line) && |line| > max))
  {
    WrapOverWords(text, max);
  }

  /** Joining the lines with single spaces gives the words of the text joined
      with single spaces: no word is lost, reordered or split. */
  lemma JoinRoundTrip(text: string, max: int)
    ensures JoinSp(WrapText(text, max)) == JoinSp(Words(text))
  {
    WrapOverWords(text, max);
    PlaceWords(Start, Words(text), max);
    assert Flush(Start) + Words(text) == Words(text);
  }

  /** Splitting the joined lines again recovers exactly the words of the text. */
  lemma WordsRoundTrip(text: string, max: int)
    ensures Words(JoinSp(WrapText(text, max))) == Words(text)
  {
    JoinRoundTrip(text, max);
    WordsJoin(Words(text));
  }

  /** Greedy maximality: the first word of each line would not have fitted on
      the line before it. */
  lemma Maximal(text: string, max: int)
    ensures forall i :: 0 <= i < |WrapText(text, max)| - 1 ==>
              |WrapText(text, max)[i] + " " + FirstWord(WrapText(text, max)[i + 1])| > max
  {
    WrapOverWords(text, max);
    var w := PlaceAll(Start, Words(text), max);
    var lines := Flush(w);
    assert Chained(lines, max);
  }

  /** There are no lines exactly when the text holds no word. */
  lemma NoLinesIffNoWords(text: string, max: int)
    ensures WrapText(text, max) == [] <==> Words(text) == []
  {
    JoinRoundTrip(text, max);
    var lines := WrapText(text, max);
    if lines != [] {
      LinesFit(text, max);
      assert IsLine(lines[0]);
      assert JoinSp(lines) != "";
    }
    if Words(text) != [] {
      JoinTidy(Words(text));
    }
  }

  /** Text that is not blank once trimmed always yields at least one line. */
  lemma NonBlankHasLines(text: string, max: int)
    requires Trim(text) != ""
    ensures WrapText(text, max) != []
  {
    if Words(text) == [] {
      NoWordsAllSpace(text);
    }
    NoLinesIffNoWords(text, max);
  }

  // ---------------------------------------------------------------------------
  // A word longer than the budget gets a line of its own

  predicate Kept(w: Wrapping, v: string) {
    v in w.lines || v == w.current
  }

  /** A word over budget, once pushed or current, stays a line of its own. */
  lemma KeepLong(w: Wrapping, word: string, v: string, max: int)
    requires Kept(w, v) && |v| > max && v != ""
    requires Good(w, max) && IsWord(word)
    ensures Kept(Place(w, word, max), v)
  {
    if w.current != "" {
      if |w.current + " " + word| > max {
        PlacePush(w, word, max);
      } else {
        PlaceExtend(w, word, max);
      }
    }
  }

  lemma {:induction false} KeepLongAll(w: Wrapping, words: seq<string>, v: string, max: int)
    requires Kept(w, v) && |v| > max && v != ""
    requires Good(w, max)
    requires forall i :: 0 <= i < |words| ==> IsWord(words[i])
    ensures Kept(PlaceAll(w, words, max), v)
    ensures v in Flush(PlaceAll(w, words, max))
    decreases |words|
  {
    if words != [] {
      var next := Place(w, words[0], max);
      assert Kept(next, v) by { KeepLong(w, words[0], v, max); }
      assert Good(next, max) by { PlaceWord(w, words[0], max); }
      TailWords(words);
      KeepLongAll(next, words[1..], v, max);
    } else {
      assert v in Flush(w);
    }
  }

  /** A word longer than the budget is placed as the current line. */
  lemma LongStarts(w: Wrapping, word: string, max: int)
    requires Good(w, max) && IsWord(word) && |word| > max
    ensures Place(w, word, max).current == word
  {
    if w.current == "" {
      PlaceFirst(w, word, max);
    } else {
      PlacePush(w, word, max);
    }
  }

  lemma PlaceAllPivot(w: Wrapping, ws: seq<string>, j: nat, max: int)
    requires j < |ws|
    ensures PlaceAll(w, ws, max) == PlaceAll(Place(PlaceAll(w, ws[..j], max), ws[j], max), ws[j + 1..], max)
  {
    Pivot(ws, j);
    PlaceAllAppend(w, ws[..j], [ws[j]] + ws[j + 1..], max);
    assert ([ws[j]] + ws[j + 1..])[1..] == ws[j + 1..];
  }

  lemma LongWordAt(ws: seq<string>, j: nat, max: int)
    requires forall i :: 0 <= i < |ws| ==> IsWord(ws[i])
    requires j < |ws| && |ws[j]| > max
    ensures ws[j] in Flush(PlaceAll(Start, ws, max))
  {
    var front, v, rest := ws[..j], ws[j], ws[j + 1..];
    assert forall i :: 0 <= i < |front| ==> IsWord(front[i]) by {
      assert forall i :: 0 <= i < |front| ==> front[i] == ws[i];
    }
    assert forall i :: 0 <= i < |rest| ==> IsWord(rest[i]) by {
      assert forall i :: 0 <= i < |rest| ==> rest[i] == ws[j + 1 + i];
    }
    PlaceAllPivot(Start, ws, j, max);
    LongAfter(PlaceAll(Start, front, max), front, v, rest, max);
  }

  lemma LongAfter(before: Wrapping, front: seq<string>, v: string, rest: seq<string>, max: int)
    requires before == PlaceAll(Start, front, max)
    requires forall i :: 0 <= i < |front| ==> IsWord(front[i])
    requires forall i :: 0 <= i < |rest| ==> IsWord(rest[i])
    requires IsWord(v) && |v| > max
    ensures v in Flush(PlaceAll(Place(before, v, max), rest, max))
  {
    PlaceWords(Start, front, max);
    LongFrom(before, v, rest, max);
  }

  lemma LongFrom(before: Wrapping, v: string, rest: seq<string>, max: int)
    requires Good(before, max)
    requires forall i :: 0 <= i < |rest| ==> IsWord(rest[i])
    requires IsWord(v) && |v| > max
    ensures v in Flush(PlaceAll(Place(before, v, max), rest, max))
  {
    LongStarts(before, v, max);
    PlaceWord(before, v, max);
    KeepLongAll(Place(before, v, max), rest, v, max);
  }

  /** Every word longer than the budget appears, unmodified, as a line by itself. */
  lemma LongWordAlone(text: string, max: int)
    ensures forall j :: 0 <= j < |Words(text)| && |Words(text)[j]| > max ==>
              Words(text)[j] in WrapText(text, max)
  {
    WrapOverWords(text, max);
    forall j | 0 <= j < |Words(text)| && |Words(text)[j]| > max
      ensures Words(text)[j] in WrapText(text, max)
    {
      LongWordAt(Words(text), j, max);
    }
  }
}
